=== FILE: README.md ===
# galacteek-installer: a Dafny model of the installer's decision core

galacteek-installer is a tray application. It keeps the galacteek browser
installed, up to date and running. Every cycle of its `installerLoop` does
four things:

- it reads the latest release from the package registry;
- it asks `pip show` for the installed version;
- when an upgrade is needed, it downloads each wheel of the latest release
  and installs it with `pip install --user`;
- it starts a galacteek process when no live instance is registered.

At build time, `setup.py` splits `requirements.txt` and reads `__version__`.

This project models the pure decisions and sequence transformations in that
code. Every I/O boundary becomes input data:

- the registry document is a `PkgInfo` value;
- an HTTP download is a status, an optional `Content-Length` and the lengths
  returned by successive reads;
- a pip run is its stdout lines plus its exit code;
- a process registry is a map from pid to the result of `p.status()`.

Modules follow the source:

- `Wrappers` and `Text` (`wrappers.dfy`, `text.dfy`): shared helpers, the
  `Option` and `Result` types and Python's string operations (`find`,
  `split`, `join`, `str(n)`, `int(s)`).
- `Versions`: `StrictVersion` as a lexicographically ordered triple,
  `parseVersion`, `str(version)` and the `needUpgrade` expression.
- `Pip`: `PIPRunner.pipExec`, `pipPackageVersion`, `pipInstallWheel` and the
  line classification in `installWheel`.
- `Download` and `Paths`: `downloadFile` (status and length checks, the chunk
  loop, the event sequence) and how the local file name is derived from the
  URL.
- `Upgrade`: the wheel filter, the release lookup, `fetchWheel` and the
  per-wheel verdict of `upgrade`.
- `Instances`: `instances`, `instancesCount` and the spawn step of
  `installerLoop`.
- `SetupParse`: the requirements partition and the `__version__` extraction
  of `setup.py`.

The model follows the code. Some of its behaviour a reader might not
expect:

- `upgrade` fetches **every** `bdist_wheel` entry, not only the first.
- A body that ends before `Content-Length` bytes still ends with the
  completion event, so truncation is not detected.
  `Download.DownloadTruncatedCompletes` proves this.
- `pipInstallWheel` swallows a pip failure, so `installWheel` always returns
  true. `Upgrade.PipFailureNotSurfaced` proves that pip's exit code never
  changes the verdict.
- The status file is never read: that code sits behind `if 0`.
- Only status 404 is an error. Any other status goes on to read the body.
- The local file is opened before the request is made. A URL whose last
  path segment is empty, `.` or `..` names a directory there, so the open
  raises, `fetchWheel` returns `None` and nothing is installed.
- A read of pip's output that raises (undecodable bytes, an over-long line)
  ends the stream whatever pip's exit code.

Proving the contracts also showed one behaviour of the release lookup.
The lookup key is `str(StrictVersion(...))`, and that string drops a zero
patch. So a latest version listed as `1.0.0` is looked up as `1.0`, and the
lookup raises `KeyError`. `Upgrade.ZeroPatchKeyMissed` proves this, and
`Upgrade.ZeroPatchKeyMissedAll` proves it for every `a.b.0` listing.
This rests on the canonical form distutils documents for `StrictVersion`'s
`str()`, which `Versions.VersionString` models.

## Model

| member | source | states |
|---|---|---|
| `Versions.ParseVersion` | ginstaller/installer.py:376-381 | the empty string and anything that is not two or three dot-separated numerals give `None`; otherwise a version |
| `Versions.ParseVersionOf` | ginstaller/installer.py:376-381 | two or three numerals joined by dots parse to their decimal values, leading zeros included, with a missing patch read as 0 |
| `Versions.ParseVersionFields` | ginstaller/installer.py:376-381 | `a.b` parses to `(a, b, 0)` and `a.b.c` to `(a, b, c)`, field by field, for any numerals |
| `Versions.ParseVersionTriple` | ginstaller/installer.py:376-381 | a three-field version as pip prints it, an explicit zero patch included, parses to its values |
| `Versions.VersionString` | ginstaller/installer.py:430 | the printed key is non-empty and holds only digits and dots |
| `Versions.VersionStringForm` | ginstaller/installer.py:430 | the key has two dot-separated fields when the patch is zero and three otherwise, and no field has a leading zero |
| `Versions.ParseVersionString` | ginstaller/installer.py:430 | parsing `str(v)` gives back `v`, so the release key printed from a parsed version denotes that version |
| `Versions.VersionStringInjective` | ginstaller/installer.py:430 | two different versions never share a release key |
| `Versions.NeedUpgrade` | ginstaller/installer.py:423-424 | with no installed version an upgrade is always needed; otherwise it is needed iff a latest version exists and is strictly greater |
| `Versions.NeedUpgradeSettles` | ginstaller/installer.py:423-424 | equal versions need no upgrade, upgrades never go both ways, and two distinct versions always upgrade one way |
| `Pip.StreamedLines` | ginstaller/installer.py:207-213 | the lines yielded are the leading reads that returned a non-empty line, stopping at the end of the reads or at the first read that is empty or raises |
| `Pip.PipExec` | ginstaller/installer.py:207-219 | every streamed line is yielded in order, then a single failure comes last iff a read raised or, after the end of stream, the exit code is non-zero |
| `Pip.PipExecRaisesMidStream` | ginstaller/installer.py:207-213 | a read that raises ends the stream after the lines before it, whatever the exit code |
| `Pip.PipExecFailsLast` | ginstaller/installer.py:207-219 | a failure event only ever comes last, and only when a read raised or the exit code is non-zero |
| `Pip.SearchVersion` | ginstaller/installer.py:225 | finds the leftmost match of `Version:\s([\d\.]+)` and returns its capture, or reports that no position matches |
| `Pip.VersionCapture` | ginstaller/installer.py:225 | the captured group is the longest run of digits and dots right after the whitespace character, and it is non-empty |
| `Pip.PipPackageVersion` | ginstaller/installer.py:221-229 | the version depends only on the streamed lines: a failure at the end changes nothing |
| `Pip.PipVersionFirstMatch` | ginstaller/installer.py:221-229 | the version is what the first matching line's capture parses to, and an unparsable capture gives `None` |
| `Pip.PipVersionNoMatch` | ginstaller/installer.py:221-229 | with no matching line the result is `None`, whatever the exit code |
| `Pip.PipVersionIgnoresExitCode` | ginstaller/installer.py:215-229 | pip's exit code never changes the version found |
| `Pip.PipInstallWheel` | ginstaller/installer.py:231-237 | the consumer sees exactly the streamed lines, whatever the exit code |
| `Pip.Classify` | ginstaller/installer.py:487-495 | a line logs itself iff it matches `Collecting\s`; it logs "Installing galacteek" iff it matches the collected-packages pattern; it logs "Install successfull" iff it contains "Successfully installed"; each notice at most once, in that order; other lines log nothing |
| `Pip.InstallLogs` | ginstaller/installer.py:486-495 | at most three notices per output line |
| `Pip.InstallLogsAppend` | ginstaller/installer.py:486-495 | notices are produced line by line, in output order |
| `Pip.InstallLogsSkipsOther` | ginstaller/installer.py:486-495 | a line matching none of the patterns contributes nothing |
| `Pip.InstallWheel` | ginstaller/installer.py:474-500 | the notices are those of pip's streamed lines, and the result is always success |
| `Download.DownloadEvents` | ginstaller/download.py:10-43 | an open failure, a 404 and a missing length are the only errors, checked in that order; a success ends with the completion event and holds only progress events before it |
| `Download.DownloadFile` | ginstaller/download.py:10-43 | a local path naming a directory fails first, then 404, then a missing length, all before any event; otherwise one progress event per written chunk, each carrying the running total and the declared length, then the completion event with the local path last |
| `Download.BodyEvents` | ginstaller/download.py:29-41 | the chunk loop yields one progress event per written chunk with the running total and the declared length; written chunks are non-empty and were read below the declared length; it stops at the end of input, an empty read, or the first read once the total has reached the declared length |
| `Download.ReadBody` | ginstaller/download.py:29-41 | the chunk loop's events are exactly those of the reference `BodyEvents` |
| `Download.WrittenCounts` | ginstaller/download.py:32-41 | each reported count is the total of the chunks read so far; each written chunk was non-empty and was read while the count was below the declared length |
| `Download.WrittenStops` | ginstaller/download.py:32-35 | writing stops at the end of input, at an empty read, or at the first read made once the count has reached the declared length |
| `Download.DownloadProgressIncreases` | ginstaller/download.py:37-41 | consecutive progress counts strictly increase and carry the same declared length |
| `Download.DownloadStops` | ginstaller/download.py:33-35 | the number of progress events is fixed by the first empty read or by the first read after the declared length is reached; that read's chunk is dropped |
| `Download.DownloadOvershootBound` | ginstaller/download.py:29-39 | with reads of at most 524288 bytes, the final count is below the declared length plus 524288 |
| `Download.DownloadTruncatedCompletes` | ginstaller/download.py:32-43 | 500 of 1000 declared bytes still end with the completion event |
| `Download.DownloadTwoChunks` | ginstaller/download.py:32-43 | two 500-byte reads for 1000 declared bytes give progress 500, progress 1000, then completion |
| `Download.DownloadOnlyNotFoundFails` | ginstaller/download.py:15-27 | once the local file can be opened, any status other than 404 with a length present reaches the body |
| `Paths.Basename` | ginstaller/download.py:13 | the base name holds no `/` and is the whole path or the part after its last `/` |
| `Paths.UrlPath` | ginstaller/download.py:11-12 | the path holds no query and no fragment |
| `Paths.FileName` | ginstaller/download.py:11-13 | the local file name holds no `/` |
| `Paths.FileNameIsLastSegment` | ginstaller/download.py:11-13 | the local file name is the last `/`-separated segment of the URL's path: a suffix of it, and either the whole path or preceded by a `/` |
| `Paths.LocalPath` | ginstaller/download.py:15-16 | the file sits directly inside the temporary directory |
| `Paths.UrlPathOfHttps` | ginstaller/download.py:11-12 | for `https://host/path` followed by nothing, a query or a fragment, the path is everything after the host up to the query or fragment (a path without parameters) |
| `Paths.FileNameOfHttps` | ginstaller/download.py:11-13 | a wheel URL's file name is its last path segment, whatever query or fragment follows |
| `Paths.QueryDropped` | ginstaller/download.py:11-13 | `https://h/a/x.whl?sha=1` is saved as `x.whl` |
| `Upgrade.Wheels` | ginstaller/installer.py:432-435 | keeps exactly the `bdist_wheel` entries, and every kept entry comes from the list |
| `Upgrade.WheelsAppend` | ginstaller/installer.py:432-435 | the filter keeps list order |
| `Upgrade.WheelsAllOrNone` | ginstaller/installer.py:432-435 | an all-wheel list is kept whole; a list with no wheels is skipped entirely |
| `Upgrade.LatestRelease` | ginstaller/installer.py:502-506 | the latest release is the parsed registry version: `None` for the empty string and `v` for the printed form of `v` |
| `Upgrade.ReleaseKey` | ginstaller/installer.py:430 | the key parses back to the latest version, and is `"None"`, which parses to nothing, when there is none |
| `Upgrade.WheelsToFetch` | ginstaller/installer.py:423-435 | nothing is fetched when no upgrade is needed or `releases` is missing; the lookup fails iff the key is absent; when it is present, the fetched list is exactly that release's wheels |
| `Upgrade.WheelsToFetchListed` | ginstaller/installer.py:426-432 | a release listed under its printed version has its wheels fetched |
| `Upgrade.ZeroPatchKeyMissed` | ginstaller/installer.py:430 | a first install of a release listed only as `1.0.0` fails its lookup, because the key is `1.0` |
| `Upgrade.ZeroPatchKeyMissedAll` | ginstaller/installer.py:426-431 | for every `a` and `b`, a first install of a release listed only as `a.b.0` fails its lookup with the two-field key `a.b` |
| `Upgrade.LastDonePath` | ginstaller/installer.py:461-468 | the path is that of the last completion event, and `None` when there is no completion event |
| `Upgrade.FetchWheel` | ginstaller/installer.py:454-472 | a failed download gives no path |
| `Upgrade.FetchWheelOfDownload` | ginstaller/installer.py:454-472 | a download that opens its file and is not refused yields the local path, whether or not every declared byte arrived; otherwise no path |
| `Upgrade.AttemptWheel` | ginstaller/installer.py:437-443 | "Upgrade success" is logged iff the fetch returned a non-empty path; without one, nothing is installed |
| `Upgrade.PipFailureNotSurfaced` | ginstaller/installer.py:437-443 | nothing pip does changes the upgrade verdict: exit code and raising reads alike |
| `Upgrade.AttemptWith` | ginstaller/installer.py:437-443 | a wheel is installed from the path its own URL downloaded to, iff that path is non-empty, and its notices are those of that pip run; with no path or an empty path nothing is installed and nothing is logged |
| `Upgrade.UpgradeAttempts` | ginstaller/installer.py:411-443 | the lookup error is propagated; otherwise exactly one attempt is made per wheel, in list order, and each attempt fetches that wheel's URL and installs from the path it yields (`AttemptWith`) |
| `Instances.ScanInstances` | ginstaller/installer.py:390-400 | yields each entry whose status is "running" or "sleeping" exactly once, and skips failed queries and all other statuses |
| `Instances.InstancesCount` | ginstaller/installer.py:383-388 | the count is the number of live entries, at most the registry size |
| `Instances.EnsureInstance` | ginstaller/installer.py:402-407 | a process is registered iff the live count is 0 and the launch gave one; at most one entry is added, and nothing else changes |
| `Instances.SpawnLeavesOneLive` | ginstaller/installer.py:406-407 | after a spawn from zero, if the new process is live, exactly one instance is live |
| `Instances.FailedEntriesNotCounted` | ginstaller/installer.py:393-400 | an entry whose status query fails is never counted |
| `SetupParse.LastWord` | setup.py:59-61 | the link taken from an editable line is its trailing token: non-empty, whitespace-free, preceded by whitespace or the line start, and followed only by whitespace |
| `SetupParse.PartitionRequirements` | setup.py:54-63 | each line lands in exactly one list; requirements are non-editable lines of the file; links are whitespace-free tokens |
| `SetupParse.PartitionAppend` | setup.py:58-63 | both lists keep the file's line order |
| `SetupParse.PartitionPlain` | setup.py:62-63 | without editable lines every line is kept unchanged, in order, empty lines included |
| `SetupParse.PartitionLine` | setup.py:58-63 | an editable line adds its last whitespace-separated token to the links and nothing to the requirements; any other line is kept unchanged as a requirement |
| `SetupParse.EditableLink` | setup.py:59-61 | the line `-e <link>` contributes exactly `<link>` to the links |
| `SetupParse.VersionCaptureAt` | setup.py:24 | the captured version is the non-empty text after `__version__ = '` up to the first closing quote |
| `SetupParse.ExtractVersion` | setup.py:21-27 | the version is the capture of the leftmost line-anchored `__version__ = '...'` match; with no match it fails with "Unable to determine version." |
| `SetupParse.VersionOnFirstLine` | setup.py:24-25 | a file starting with `__version__ = '<v>'` yields `<v>` |

## Left out

- Qt user interface: the tray icon, the dialogs and the float progress
  percentage (ginstaller/installer.py:288-310, 464). ginstaller/ui.py is not
  part of this model.
- Networking and file I/O are inputs instead: `getPkgInfo`, the aiohttp and
  aiofiles calls, and the temporary directory (`tmpDir` is a parameter).
  Reads of the HTTP body that raise mid-transfer are not modelled.
- `Download.DownloadFile`: of the ways opening the local file can fail, only
  a name that is empty, `.` or `..` is modelled; a name longer than the file
  system allows and permission errors are not.
- `readStatus` and `writeStatus` are left out. They are only reached from
  code behind `if 0`.
- The `selfcachedcoromethod` TTL cache is left out. Its module is not part of
  this model, and its purpose is concurrency.
- `asyncio.Lock` is left out. So is weak-value removal of registry entries
  once their process object is garbage. The registry is a plain map.
- Subprocess spawning (`runGalacteek`, the protocol classes, `shell`) is
  left out. psutil's `status()` is an input. `startInstance` raising is not
  modelled.
- Environment dictionaries (`environ`, `environ2`, the `env` of
  `installWheel`) are left out. They are OS plumbing, and the last one is
  never passed to pip.
- `pipExecOld` and `pipInstall` are left out as dead code.
- The `installerLoop` sleep and the `running` flag are left out. Exceptions
  escaping `upgrade` end the loop task; the model only returns `Failure`.
- A wheel entry without `url` is not modelled (`Artifact` always has
  one). `fetchWheel` reads `rinfo['url']` before its `try`
  (installer.py:455-458), so in the source that `KeyError` escapes
  `upgrade` and ends `installerLoop`.
- A registry document without `info.version`, or one that is not a mapping,
  is not modelled.
- `Content-Length` is an already converted integer. The `ValueError` of
  `int()` on a non-numeric header is not modelled.
- `Versions.ParseVersion`: `StrictVersion` pre-release suffixes (`a1`, `b2`)
  and the trailing newline its `$` admits are not modelled; such strings
  parse to `None` here.
- `Pip.SearchVersion`: `\d` is ASCII digits only; non-ASCII decimal digits
  are not modelled.
- `Paths.UrlPath`: `urlparse` follows the current CPython scheme rules.
  Older releases' special cases for `http:` and numeric ports are not
  modelled. Nor is the cleaning newer releases do first: they strip leading
  control and space characters and delete tab, CR and LF. Nor is the
  `ValueError` raised for a network location with unbalanced `[` or `]`,
  nor the `ValueError` of `_checknetloc` for a non-ASCII network location
  whose NFKC form holds `/`, `?`, `#`, `@` or `:`.
- `Instances.ScanInstances`: states which pids are yielded, not that they
  come in the registry's iteration order.
- File reading and `splitlines()` in setup.py are left out; the partition
  takes the lines as given.
- The `setup()` call is left out.

=== FILE: download.dfy ===
/** `downloadFile` (download.py): the HTTP response is replaced by its
    status, its `Content-Length` header and the lengths returned by the
    successive `resp.content.read(csize)` calls. */
module Download {
  import opened Wrappers
  import opened Paths

  /** The `csize` each read asks for. */
  const ChunkSize: nat := 524288

  /** What the generator yields: `(0, bytesRead, clength)` after each
      chunk, then `(1, arPath)`. */
  datatype DownloadEvent = Progress(bytesRead: nat, clength: int) | Done(path: string)

  /** The exceptions `downloadFile` raises before its first event: opening
      the local path fails when that path names a directory, the server
      answers 404 (`Exception('404')`), or the response has no
      `Content-Length` (the `TypeError` of `int(None)`). */
  datatype DownloadError = OpenFailed | NotFound | MissingLength

  /** Total of the chunk lengths `chunks`. */
  function Sum(chunks: seq<nat>): nat
    decreases |chunks|
  {
    if |chunks| == 0 then 0 else Sum(chunks[..|chunks| - 1]) + chunks[|chunks| - 1]
  }

  /** Length of the `i`-th read: reads past the list are at end of stream. */
  function ReadAt(chunks: seq<nat>, i: nat): nat {
    if i < |chunks| then chunks[i] else 0
  }

  /** The running counts the chunk loop reports from read `i` on, with
      `count` bytes already written: a read is written only when it is not
      empty and the count is still below the declared length. */
  function Written(clength: int, chunks: seq<nat>, i: nat, count: nat): seq<nat>
    decreases |chunks| - i
  {
    if i >= |chunks| || chunks[i] == 0 || count >= clength then []
    else [count + chunks[i]] + Written(clength, chunks, i + 1, count + chunks[i])
  }

  /** Adding the next chunk to the total of those before it. */
  lemma SumNext(chunks: seq<nat>, i: nat)
    requires i < |chunks|
    ensures Sum(chunks[..i + 1]) == Sum(chunks[..i]) + chunks[i]
  {
    assert chunks[..i + 1][..i] == chunks[..i];
  }

  /** The loop writes at most the chunks it is given, each reported count is
      the total of the chunks read so far, and each chunk written was
      non-empty and was read while the count was below the declared length. */
  lemma {:induction false} WrittenCounts(clength: int, chunks: seq<nat>, i: nat)
    requires i <= |chunks|
    ensures var w := Written(clength, chunks, i, Sum(chunks[..i]));
      && i + |w| <= |chunks|
      && (forall k :: 0 <= k < |w| ==> w[k] == Sum(chunks[..i + k + 1]))
      && (forall j :: i <= j < i + |w| ==> chunks[j] > 0 && Sum(chunks[..j]) < clength)
    decreases |chunks| - i
  {
    var count := Sum(chunks[..i]);
    if i < |chunks| && chunks[i] > 0 && count < clength {
      SumNext(chunks, i);
      WrittenCounts(clength, chunks, i + 1);
      var w' := Written(clength, chunks, i + 1, count + chunks[i]);
      var w := Written(clength, chunks, i, count);
      assert w == [count + chunks[i]] + w';
      forall k | 0 <= k < |w|
        ensures w[k] == Sum(chunks[..i + k + 1])
      {
        if k > 0 {
          assert w[k] == w'[k - 1];
        }
      }
    }
  }

  /** The loop stops at the end of the chunks, at an empty read, or at the
      first read made once the count has reached the declared length; that
      last chunk is dropped. */
  lemma {:induction false} WrittenStops(clength: int, chunks: seq<nat>, i: nat)
    requires i <= |chunks|
    ensures var n := i + |Written(clength, chunks, i, Sum(chunks[..i]))|;
      n >= |chunks| || chunks[n] == 0 || Sum(chunks[..n]) >= clength
    decreases |chunks| - i
  {
    var count := Sum(chunks[..i]);
    if i < |chunks| && chunks[i] > 0 && count < clength {
      SumNext(chunks, i);
      WrittenStops(clength, chunks, i + 1);
    }
  }

  function ProgressEvents(counts: seq<nat>, clength: int): (r: seq<DownloadEvent>)
    ensures |r| == |counts|
    ensures forall k :: 0 <= k < |r| ==> r[k] == Progress(counts[k], clength)
  {
    seq(|counts|, k requires 0 <= k < |counts| => Progress(counts[k], clength))
  }

  /** The progress events of the chunk loop, as a reference for it: one per
      chunk written, carrying the total so far and the declared length. The
      loop writes only non-empty chunks read while the total is below the
      declared length, and it stops at the end of the chunks, at an empty
      read, or at the first read made once the total has reached the
      declared length. */
  function BodyEvents(clength: int, chunks: seq<nat>): (r: seq<DownloadEvent>)
    ensures |r| <= |chunks|
    ensures forall k :: 0 <= k < |r| ==> r[k] == Progress(Sum(chunks[..k + 1]), clength)
    ensures forall j :: 0 <= j < |r| ==> chunks[j] > 0 && Sum(chunks[..j]) < clength
    ensures |r| == |chunks| || chunks[|r|] == 0 || Sum(chunks[..|r|]) >= clength
  {
    assert chunks[..0] == [];
    WrittenCounts(clength, chunks, 0);
    WrittenStops(clength, chunks, 0);
    ProgressEvents(Written(clength, chunks, 0, 0), clength)
  }

  /** The chunk loop of `downloadFile`: reads until a read is empty or the
      total has reached the declared length, writing each chunk and
      reporting the new total. */
  method ReadBody(clength: int, chunks: seq<nat>) returns (events: seq<DownloadEvent>)
    ensures events == BodyEvents(clength, chunks)
  {
    var bytesRead: nat := 0;
    var i: nat := 0;
    events := [];
    ghost var counts: seq<nat> := [];
    while true
      invariant i <= |chunks| && bytesRead == Sum(chunks[..i])
      invariant |counts| == i && events == ProgressEvents(counts, clength)
      invariant counts + Written(clength, chunks, i, bytesRead) == Written(clength, chunks, 0, 0)
      decreases |chunks| - i
    {
      var data := ReadAt(chunks, i);
      if data == 0 || bytesRead >= clength {
        break;
      }
      assert chunks[..i + 1][..i] == chunks[..i];
      ghost var later := Written(clength, chunks, i + 1, bytesRead + data);
      assert Written(clength, chunks, i, bytesRead) == [bytesRead + data] + later;
      assert counts + ([bytesRead + data] + later) == counts + [bytesRead + data] + later;
      bytesRead := bytesRead + data;
      counts := counts + [bytesRead];
      events := events + [Progress(bytesRead, clength)];
      i := i + 1;
    }
    assert Written(clength, chunks, i, bytesRead) == [];
  }

  /** The whole outcome of `downloadFile`. The local file is opened before
      the request is made, so a path that names a directory fails first,
      whatever the server would answer. */
  function DownloadEvents(tmpDir: string, url: string, status: int, contentLength: Option<int>,
                          chunks: seq<nat>): (r: Result<seq<DownloadEvent>, DownloadError>)
    ensures r == Failure(OpenFailed) <==> NamesDirectory(FileName(url))
    ensures r == Failure(NotFound) <==> !NamesDirectory(FileName(url)) && status == 404
    ensures r == Failure(MissingLength) <==>
              !NamesDirectory(FileName(url)) && status != 404 && contentLength.None?
    ensures r.Success? ==> |r.value| >= 1 && r.value[|r.value| - 1] == Done(LocalPath(tmpDir, url))
    ensures r.Success? ==> forall k :: 0 <= k < |r.value| - 1 ==> r.value[k].Progress?
  {
    if NamesDirectory(FileName(url)) then Failure(OpenFailed)
    else if status == 404 then Failure(NotFound)
    else if contentLength.None? then Failure(MissingLength)
    else Success(BodyEvents(contentLength.value, chunks) + [Done(LocalPath(tmpDir, url))])
  }

  /** `downloadFile`: the open, status and length checks come before any
      event; then one progress event per written chunk, carrying the running
      count and the declared length, and a single completion event last. */
  method DownloadFile(tmpDir: string, url: string, status: int, contentLength: Option<int>,
                      chunks: seq<nat>) returns (r: Result<seq<DownloadEvent>, DownloadError>)
    ensures r == DownloadEvents(tmpDir, url, status, contentLength, chunks)
    ensures NamesDirectory(FileName(url)) ==> r == Failure(OpenFailed)
    ensures !NamesDirectory(FileName(url)) && status == 404 ==> r == Failure(NotFound)
    ensures !NamesDirectory(FileName(url)) && status != 404 && contentLength.None? ==>
              r == Failure(MissingLength)
    ensures r.Success? ==> |r.value| >= 1 && r.value[|r.value| - 1] == Done(LocalPath(tmpDir, url))
    ensures r.Success? ==> |r.value| - 1 <= |chunks| && forall k :: 0 <= k < |r.value| - 1 ==>
              r.value[k] == Progress(Sum(chunks[..k + 1]), contentLength.value)
  {
    if NamesDirectory(FileName(url)) {
      return Failure(OpenFailed);
    }
    if status == 404 {
      return Failure(NotFound);
    }
    if contentLength.None? {
      return Failure(MissingLength);
    }
    var events := ReadBody(contentLength.value, chunks);
    return Success(events + [Done(LocalPath(tmpDir, url))]);
  }

  /** The body of a successful download. */
  lemma SuccessBody(tmpDir: string, url: string, status: int, contentLength: Option<int>,
                    chunks: seq<nat>)
    requires DownloadEvents(tmpDir, url, status, contentLength, chunks).Success?
    ensures contentLength.Some?
    ensures DownloadEvents(tmpDir, url, status, contentLength, chunks).value
         == BodyEvents(contentLength.value, chunks) + [Done(LocalPath(tmpDir, url))]
  {
  }

  /** Consecutive progress events of the chunk loop. */
  lemma BodyIncreases(clength: int, chunks: seq<nat>, k: nat)
    requires k + 1 < |BodyEvents(clength, chunks)|
    ensures var body := BodyEvents(clength, chunks);
      && body[k].bytesRead < body[k + 1].bytesRead
      && body[k].clength == body[k + 1].clength == clength
  {
    SumNext(chunks, k + 1);
  }

  /** Progress counts strictly increase, and every progress event carries
      the declared length. */
  lemma DownloadProgressIncreases(tmpDir: string, url: string, status: int, contentLength: Option<int>,
                                  chunks: seq<nat>, k: nat)
    requires DownloadEvents(tmpDir, url, status, contentLength, chunks).Success?
    requires k + 1 < |DownloadEvents(tmpDir, url, status, contentLength, chunks).value| - 1
    ensures var ev := DownloadEvents(tmpDir, url, status, contentLength, chunks).value;
      && ev[k].Progress? && ev[k + 1].Progress?
      && ev[k].bytesRead < ev[k + 1].bytesRead
      && ev[k].clength == ev[k + 1].clength == contentLength.value
  {
    SuccessBody(tmpDir, url, status, contentLength, chunks);
    BodyIncreases(contentLength.value, chunks, k);
  }

  /** The number of chunks written is decided by the first empty read or the
      first read made once the count has reached the declared length; the
      chunk of that read is not written. */
  lemma DownloadStops(tmpDir: string, url: string, status: int, contentLength: Option<int>,
                      chunks: seq<nat>)
    requires DownloadEvents(tmpDir, url, status, contentLength, chunks).Success?
    ensures var n := |DownloadEvents(tmpDir, url, status, contentLength, chunks).value| - 1;
      && n <= |chunks|
      && (forall j :: 0 <= j < n ==> chunks[j] > 0 && Sum(chunks[..j]) < contentLength.value)
      && (n == |chunks| || chunks[n] == 0 || Sum(chunks[..n]) >= contentLength.value)
  {
    SuccessBody(tmpDir, url, status, contentLength, chunks);
  }

  /** With reads of at most `ChunkSize` bytes, the last count reported by
      the chunk loop stays below the declared length plus one chunk. */
  lemma BodyOvershoot(clength: int, chunks: seq<nat>)
    requires forall j :: 0 <= j < |chunks| ==> chunks[j] <= ChunkSize
    ensures var body := BodyEvents(clength, chunks);
      |body| == 0 || body[|body| - 1].bytesRead < clength + ChunkSize
  {
    var body := BodyEvents(clength, chunks);
    if |body| > 0 {
      SumNext(chunks, |body| - 1);
    }
  }

  /** With reads of at most `ChunkSize` bytes, the final count stays below
      the declared length plus one chunk. */
  lemma DownloadOvershootBound(tmpDir: string, url: string, status: int, contentLength: Option<int>,
                               chunks: seq<nat>)
    requires DownloadEvents(tmpDir, url, status, contentLength, chunks).Success?
    requires forall j :: 0 <= j < |chunks| ==> chunks[j] <= ChunkSize
    ensures var ev := DownloadEvents(tmpDir, url, status, contentLength, chunks).value;
      |ev| == 1 || ev[|ev| - 2].bytesRead < contentLength.value + ChunkSize
  {
    SuccessBody(tmpDir, url, status, contentLength, chunks);
    var ev := DownloadEvents(tmpDir, url, status, contentLength, chunks).value;
    var body := BodyEvents(contentLength.value, chunks);
    BodyOvershoot(contentLength.value, chunks);
    if |ev| > 1 {
      assert ev[|ev| - 2] == body[|body| - 1];
    }
  }

  /** A body that ends early is not detected: 500 of 1000 declared bytes
      still end with the completion event. */
  lemma DownloadTruncatedCompletes(tmpDir: string, url: string)
    requires !NamesDirectory(FileName(url))
    ensures var r := DownloadEvents(tmpDir, url, 200, Some(1000), [500]);
      r.Success? && r.value == [Progress(500, 1000), Done(LocalPath(tmpDir, url))]
  {
    BodyOfTruncated();
  }

  lemma BodyOfTruncated()
    ensures BodyEvents(1000, [500]) == [Progress(500, 1000)]
  {
    assert Written(1000, [500], 0, 0) == [500];
  }

  /** Two reads of 500 bytes for a declared length of 1000: two progress
      events, then the completion; the third read is not written. */
  lemma DownloadTwoChunks(tmpDir: string, url: string, extra: nat)
    requires !NamesDirectory(FileName(url))
    ensures var r := DownloadEvents(tmpDir, url, 200, Some(1000), [500, 500, extra]);
      r.Success? && r.value == [Progress(500, 1000), Progress(1000, 1000), Done(LocalPath(tmpDir, url))]
  {
    BodyOfTwoChunks(extra);
  }

  lemma BodyOfTwoChunks(extra: nat)
    ensures BodyEvents(1000, [500, 500, extra]) == [Progress(500, 1000), Progress(1000, 1000)]
  {
    var chunks := [500, 500, extra];
    assert Written(1000, chunks, 2, 1000) == [];
    assert Written(1000, chunks, 1, 500) == [1000];
    assert Written(1000, chunks, 0, 0) == [500, 1000];
  }

  /** Once the local file is open, any status other than 404 goes on to the
      body. */
  lemma DownloadOnlyNotFoundFails(tmpDir: string, url: string, status: int, clength: int,
                                  chunks: seq<nat>)
    requires !NamesDirectory(FileName(url))
    requires status != 404
    ensures DownloadEvents(tmpDir, url, status, Some(clength), chunks).Success?
  {
  }
}

=== FILE: instances.dfy ===
/** Instance bookkeeping of `InstallerApplication` (installer.py): the
    registry of started processes, `instances`, `instancesCount` and the
    spawn decision of one `installerLoop` cycle. A process is represented by
    what `p.status()` gives when it is queried. */
module Instances {
  import opened Wrappers

  /** The outcome of `p.status()`: a psutil status name, or an exception
      for a process that is gone. */
  datatype StatusOrError = Status(name: string) | QueryFailed

  /** The registry `_gProcesses`, keyed by process id. */
  type Registry = map<int, StatusOrError>

  /** The statuses `instances` counts as alive. */
  predicate IsLive(s: StatusOrError) {
    s.Status? && (s.name == "running" || s.name == "sleeping")
  }

  /** The process ids of the live entries. */
  function LivePids(reg: Registry): set<int> {
    set pid | pid in reg && IsLive(reg[pid])
  }

  /** `order` lists every registry key exactly once: the order in which
      the registry's items are iterated. */
  predicate IsIterationOrder(reg: Registry, order: seq<int>) {
    && (forall i, j :: 0 <= i < j < |order| ==> order[i] != order[j])
    && (forall pid :: pid in reg ==> pid in order)
    && (forall k :: 0 <= k < |order| ==> order[k] in reg)
  }

  /** `instances`: scans the registry in its iteration order and yields
      each live entry once, in that order; entries whose status query fails
      are skipped. */
  method ScanInstances(reg: Registry, order: seq<int>) returns (live: seq<int>)
    requires IsIterationOrder(reg, order)
    ensures forall i, j :: 0 <= i < j < |live| ==> live[i] != live[j]
    ensures forall pid :: pid in live <==> pid in reg && IsLive(reg[pid])
  {
    live := [];
    var i := 0;
    while i < |order|
      invariant i <= |order|
      invariant forall a, b :: 0 <= a < b < |live| ==> live[a] != live[b]
      invariant forall pid :: pid in live ==> pid in order[..i] && pid in reg && IsLive(reg[pid])
      invariant forall k :: 0 <= k < i && IsLive(reg[order[k]]) ==> order[k] in live
    {
      var pid := order[i];
      if IsLive(reg[pid]) {
        live := live + [pid];
      }
      i := i + 1;
    }
  }

  /** A sequence without repetitions has as many elements as its set. */
  lemma {:induction false} DistinctCard(s: seq<int>)
    requires forall i, j :: 0 <= i < j < |s| ==> s[i] != s[j]
    ensures |set x | x in s| == |s|
    decreases |s|
  {
    if |s| > 0 {
      var t := s[..|s| - 1];
      DistinctCard(t);
      assert forall x :: x in s <==> x in t || x == s[|s| - 1];
      assert (set x | x in s) == (set x | x in t) + {s[|s| - 1]};
      assert s[|s| - 1] !in t;
    }
  }

  /** `instancesCount`: the number of entries `instances` yields, which is
      the number of live entries. */
  method InstancesCount(reg: Registry, order: seq<int>) returns (count: nat)
    requires IsIterationOrder(reg, order)
    ensures count == |LivePids(reg)|
    ensures count <= |reg|
  {
    var live := ScanInstances(reg, order);
    count := |live|;
    DistinctCard(live);
    assert forall x :: x in live <==> x in LivePids(reg);
    assert (set x | x in live) == LivePids(reg);
    assert LivePids(reg) <= reg.Keys;
    LiveSubsetCard(reg);
  }

  lemma LiveSubsetCard(reg: Registry)
    ensures |LivePids(reg)| <= |reg|
  {
    assert LivePids(reg) <= reg.Keys;
    SubsetCard(LivePids(reg), reg.Keys);
  }

  lemma SubsetCard(a: set<int>, b: set<int>)
    requires a <= b
    ensures |a| <= |b|
  {
    assert b == a + (b - a);
  }

  /** The spawn step of one `installerLoop` cycle: `startInstance` runs only
      when no instance is live, and registers the process it got (if any)
      under its pid. `launched` is what starting the process would give. */
  method EnsureInstance(reg: Registry, order: seq<int>, launched: Option<(int, StatusOrError)>)
    returns (reg': Registry, spawned: bool)
    requires IsIterationOrder(reg, order)
    ensures spawned <==> |LivePids(reg)| == 0 && launched.Some?
    ensures spawned ==> reg' == reg[launched.value.0 := launched.value.1]
    ensures !spawned ==> reg' == reg
    ensures |reg'.Keys| <= |reg.Keys| + 1
  {
    var count := InstancesCount(reg, order);
    if count == 0 && launched.Some? {
      var (pid, status) := launched.value;
      reg' := reg[pid := status];
      spawned := true;
      assert reg'.Keys == reg.Keys + {pid};
    } else {
      reg' := reg;
      spawned := false;
    }
  }

  /** A cycle that spawned a process which is then live leaves exactly one
      live instance, so the next cycle does not spawn again. */
  lemma SpawnLeavesOneLive(reg: Registry, pid: int, status: StatusOrError)
    requires |LivePids(reg)| == 0 && IsLive(status)
    ensures LivePids(reg[pid := status]) == {pid}
  {
  }

  /** Entries whose status query fails never count, and adding or removing
      one does not change the count. */
  lemma FailedEntriesNotCounted(reg: Registry, pid: int)
    ensures pid !in LivePids(reg[pid := QueryFailed])
    ensures pid !in reg ==> LivePids(reg[pid := QueryFailed]) == LivePids(reg)
  {
  }
}

=== FILE: paths.dfy ===
/** How `downloadFile` (download.py) names the local file: the path
    component of `urllib.parse.urlparse(url)`, its `os.path.basename`, and
    `os.path.join` with the temporary directory. */
module Paths {
  import opened Wrappers
  import opened Text

  predicate IsAsciiLetter(c: char) {
    ('a' <= c <= 'z') || ('A' <= c <= 'Z')
  }

  /** The characters `urllib.parse` allows in a scheme. */
  predicate IsSchemeChar(c: char) {
    IsAsciiLetter(c) || IsDigit(c) || c == '+' || c == '-' || c == '.'
  }

  function LowerAscii(s: string): (r: string)
    ensures |r| == |s|
  {
    seq(|s|, i requires 0 <= i < |s| =>
      if 'A' <= s[i] <= 'Z' then (s[i] as int + 32) as char else s[i])
  }

  /** The schemes whose last path segment `urlparse` splits `;params` off. */
  const ParamSchemes: seq<string> :=
    ["", "ftp", "hdl", "prospero", "http", "imap", "https", "shttp", "rtsp",
     "rtsps", "rtspu", "sip", "sips", "mms", "sftp", "tel"]

  /** First step of `urlsplit`: a scheme is text before the first `:` that
      starts with an ASCII letter and holds only scheme characters. */
  function SplitScheme(url: string): (r: (string, string))
    ensures r.0 == "" ==> r.1 == url
  {
    match IndexOf(url, ':', 0)
    case Some(i) =>
      if i > 0 && IsAsciiLetter(url[0]) && forall k :: 0 <= k < i ==> IsSchemeChar(url[k])
      then (LowerAscii(url[..i]), url[i + 1..])
      else ("", url)
    case None => ("", url)
  }

  /** Drops a `//netloc` prefix: the network location runs up to the first
      `/`, `?` or `#`. */
  function SkipNetloc(rest: string): string {
    if |rest| >= 2 && rest[..2] == "//"
    then rest[SpanEnd(rest, 2, c => c != '/' && c != '?' && c != '#')..]
    else rest
  }

  /** `s.split(c, 1)[0]`: the text before the first `c`. */
  function CutAt(s: string, c: char, from: nat): (r: string)
    ensures |r| <= |s| && r == s[..|r|]
    ensures c !in s[..if from <= |s| then from else |s|] ==> c !in r
  {
    match IndexOf(s, c, from)
    case Some(i) => s[..i]
    case None => s
  }

  /** `_splitparams`: cuts at the first `;` of the last path segment. */
  function SplitParams(p: string): (r: string)
    ensures |r| <= |p| && r == p[..|r|]
  {
    match LastIndexOf(p, '/')
    case Some(j) => CutAt(p, ';', j)
    case None => CutAt(p, ';', 0)
  }

  /** The `path` attribute of `urlparse(url)`: the query and the fragment
      are split off, so the path holds neither `?` nor `#`. */
  function UrlPath(url: string): (r: string)
    ensures '?' !in r && '#' !in r
  {
    var (scheme, rest) := SplitScheme(url);
    var f := CutAt(SkipNetloc(rest), '#', 0);
    var p := CutAt(f, '?', 0);
    assert forall i :: 0 <= i < |p| ==> p[i] == f[i];
    if scheme in ParamSchemes then
      var q := SplitParams(p);
      assert forall i :: 0 <= i < |q| ==> q[i] == p[i];
      q
    else p
  }

  /** `os.path.basename` (POSIX): the text after the last `/`. */
  function Basename(p: string): (r: string)
    ensures '/' !in r
    ensures |r| <= |p| && r == p[|p| - |r|..]
    ensures |r| == |p| || p[|p| - |r| - 1] == '/'
  {
    match LastIndexOf(p, '/')
    case Some(j) => p[j + 1..]
    case None => p
  }

  /** `os.path.join(dir, name)` (POSIX). */
  function JoinPath(dir: string, name: string): string {
    if |name| > 0 && name[0] == '/' then name
    else if dir == "" || dir[|dir| - 1] == '/' then dir + name
    else dir + "/" + name
  }

  /** The file name `downloadFile` writes to. */
  function FileName(url: string): (r: string)
    ensures '/' !in r
  {
    Basename(UrlPath(url))
  }

  /** The local file name is the last `/`-separated segment of the URL's
      path. */
  lemma FileNameIsLastSegment(url: string)
    ensures var p := UrlPath(url); var r := FileName(url);
      && |r| <= |p| && r == p[|p| - |r|..]
      && (|r| == |p| || p[|p| - |r| - 1] == '/')
  {
    LastSegmentOf(UrlPath(url), FileName(url));
  }

  /** `Basename`'s postcondition, restated for a result named by the caller:
      it lets `FileNameIsLastSegment` use the fact without unfolding
      `UrlPath`. */
  lemma LastSegmentOf(p: string, r: string)
    requires r == Basename(p)
    ensures |r| <= |p| && r == p[|p| - |r|..]
    ensures |r| == |p| || p[|p| - |r| - 1] == '/'
  {
  }

  /** A base name that `os.path.join(tmpDir, name)` turns into a directory
      (the temporary directory itself or its parent), so opening it for
      writing raises. Any other name is a new entry of the fresh, empty
      temporary directory. */
  predicate NamesDirectory(name: string) {
    name == "" || name == "." || name == ".."
  }

  /** `arPath`: the file sits directly inside the temporary directory. */
  function LocalPath(tmpDir: string, url: string): (r: string)
    ensures tmpDir != "" && tmpDir[|tmpDir| - 1] != '/' ==> r == tmpDir + "/" + FileName(url)
    ensures tmpDir != "" && tmpDir[|tmpDir| - 1] == '/' ==> r == tmpDir + FileName(url)
  {
    JoinPath(tmpDir, FileName(url))
  }

  /** Splitting at the first `c`: when none of the first `n` characters is
      `c`, the cut keeps them, and it stops right there when the string ends
      or holds `c` at `n`. */
  lemma CutAtFirst(s: string, c: char, n: nat)
    requires n <= |s|
    requires forall i :: 0 <= i < n ==> s[i] != c
    ensures n <= |CutAt(s, c, 0)|
    ensures n == |s| || s[n] == c ==> CutAt(s, c, 0) == s[..n]
  {
  }

  /** `https://host` followed by a text starting with `/`: the scheme is
      `https` and the network location is `host`. */
  lemma HttpsSplit(host: string, s: string)
    requires forall i :: 0 <= i < |host| ==> host[i] != '/' && host[i] != '?' && host[i] != '#'
    requires |s| > 0 && s[0] == '/'
    ensures var url := "https://" + host + s;
      SplitScheme(url).0 == "https" && SkipNetloc(SplitScheme(url).1) == s
  {
    var url := "https://" + host + s;
    assert url[5] == ':';
    assert forall k :: 0 <= k < 5 ==> url[k] == "https"[k];
    assert IndexOf(url, ':', 0) == Some(5);
    assert url[..5] == "https";
    assert LowerAscii("https") == "https";
    var rest := url[6..];
    assert SplitScheme(url) == ("https", rest);
    assert rest == "//" + host + s;
    var e := SpanEnd(rest, 2, c => c != '/' && c != '?' && c != '#');
    assert forall k :: 2 <= k < 2 + |host| ==> rest[k] == host[k - 2];
    assert rest[2 + |host|] == '/';
    assert e == 2 + |host|;
    assert rest[e..] == s;
  }

  /** Splitting off the fragment and then the query of `p + tail` leaves
      `p` when `tail` is empty or starts the query or the fragment. */
  lemma CutTail(p: string, tail: string)
    requires forall i :: 0 <= i < |p| ==> p[i] != '?' && p[i] != '#'
    requires tail == "" || tail[0] == '?' || tail[0] == '#'
    ensures CutAt(CutAt(p + tail, '#', 0), '?', 0) == p
  {
    var s := p + tail;
    assert s[..|p|] == p;
    var f := CutAt(s, '#', 0);
    CutAtFirst(s, '#', |p|);
    if tail != "" && tail[0] == '?' {
      CutAtFirst(s, '#', |p| + 1);
      assert f[|p|] == '?';
    }
    assert f[..|p|] == p;
    CutAtFirst(f, '?', |p|);
  }

  /** For an `https://host/...` address the path is everything after the
      host, up to the query or the fragment. */
  lemma UrlPathOfHttps(host: string, p: string, tail: string)
    requires forall i :: 0 <= i < |host| ==> host[i] != '/' && host[i] != '?' && host[i] != '#'
    requires |p| > 0 && p[0] == '/'
    requires forall i :: 0 <= i < |p| ==> p[i] != '?' && p[i] != '#' && p[i] != ';'
    requires tail == "" || tail[0] == '?' || tail[0] == '#'
    ensures UrlPath("https://" + host + p + tail) == p
  {
    var s := p + tail;
    assert "https://" + host + p + tail == "https://" + host + s;
    assert s[0] == '/';
    HttpsSplit(host, s);
    CutTail(p, tail);
    NoParams(p);
    HttpsPath("https://" + host + s, p);
  }

  /** The path of an `https` URL once its pieces are known. */
  lemma HttpsPath(url: string, p: string)
    requires SplitScheme(url).0 == "https"
    requires CutAt(CutAt(SkipNetloc(SplitScheme(url).1), '#', 0), '?', 0) == p
    requires SplitParams(p) == p
    ensures UrlPath(url) == p
  {
    assert ParamSchemes[6] == "https";
  }

  /** A path without `;` has no parameters to split off. */
  lemma NoParams(p: string)
    requires forall i :: 0 <= i < |p| ==> p[i] != ';'
    ensures SplitParams(p) == p
  {
    match LastIndexOf(p, '/')
    case Some(j) => assert IndexOf(p, ';', j) == None;
    case None => assert IndexOf(p, ';', 0) == None;
  }

  /** The base name of `dir/name` is `name`. */
  lemma BasenameAfterSlash(dir: string, name: string)
    requires forall i :: 0 <= i < |name| ==> name[i] != '/'
    ensures Basename(dir + "/" + name) == name
  {
    var p := dir + "/" + name;
    forall i | |dir| < i < |p|
      ensures p[i] != '/'
    {
      assert p[i] == name[i - |dir| - 1];
    }
    assert p[|dir|] == '/';
    assert LastIndexOf(p, '/') == Some(|dir|);
    assert p[|dir| + 1..] == name;
  }

  /** The file name of a wheel address on a package host is the last path
      segment, whatever query or fragment follows it. */
  lemma FileNameOfHttps(host: string, dir: string, name: string, tail: string)
    requires forall i :: 0 <= i < |host| ==> host[i] != '/' && host[i] != '?' && host[i] != '#'
    requires dir == "" || dir[0] == '/'
    requires forall i :: 0 <= i < |dir| ==> dir[i] != '?' && dir[i] != '#' && dir[i] != ';'
    requires forall i :: 0 <= i < |name| ==> name[i] != '/' && name[i] != '?' && name[i] != '#' && name[i] != ';'
    requires tail == "" || tail[0] == '?' || tail[0] == '#'
    ensures FileName("https://" + host + (dir + "/" + name) + tail) == name
  {
    var p := dir + "/" + name;
    forall i | 0 <= i < |p|
      ensures p[i] != '?' && p[i] != '#' && p[i] != ';'
    {
      if i < |dir| {
        assert p[i] == dir[i];
      } else if i > |dir| {
        assert p[i] == name[i - |dir| - 1];
      }
    }
    assert p[0] == '/' by {
      if |dir| > 0 {
        assert p[0] == dir[0];
      }
    }
    UrlPathOfHttps(host, p, tail);
    BasenameAfterSlash(dir, name);
  }

  /** A query after the wheel name does not reach the local file name. */
  lemma QueryDropped()
    ensures FileName("https://h/a/x.whl?sha=1") == "x.whl"
  {
    assert "https://" + "h" + ("/a" + "/" + "x.whl") + "?sha=1" == "https://h/a/x.whl?sha=1";
    FileNameOfHttps("h", "/a", "x.whl", "?sha=1");
  }
}

=== FILE: pip.dfy ===
/** `PIPRunner` and the output handling of `installWheel` (installer.py).
    A pip subprocess is replaced by what it produces: the successive results
    of `readline()` on its standard output and its exit code. */
module Pip {
  import opened Wrappers
  import opened Text
  import opened Versions

  /** One `readline()` on pip's standard output followed by `decode()`: the
      decoded line (empty at end of stream), or a read that raises -- a line
      that is not UTF-8 makes `decode()` raise `UnicodeDecodeError`, and a
      line longer than the stream's limit makes `readline()` raise
      `ValueError`. */
  datatype StdoutRead = Read(text: string) | ReadRaises

  datatype PipRun = PipRun(stdout: seq<StdoutRead>, exitCode: int)

  /** What the `pipExec` generator delivers: a decoded output line, or the
      exception that ends it -- a read that raised, or the
      `Exception('Pip failed')` raised after the end of stream when the exit
      code is not zero. */
  datatype PipEvent = Line(text: string) | PipFailed

  /** The lines the read loop of `pipExec` yields: every read up to, and not
      including, the first one that is empty (end of stream) or raises. */
  function StreamedLines(stdout: seq<StdoutRead>): (r: seq<string>)
    ensures |r| <= |stdout|
    ensures forall i :: 0 <= i < |r| ==> stdout[i] == Read(r[i]) && r[i] != ""
    ensures |r| < |stdout| ==> stdout[|r|] == Read("") || stdout[|r|] == ReadRaises
    decreases |stdout|
  {
    if |stdout| == 0 || stdout[0] == Read("") || stdout[0] == ReadRaises then []
    else [stdout[0].text] + StreamedLines(stdout[1..])
  }

  /** The read loop stopped at a read that raised. */
  predicate StreamRaises(stdout: seq<StdoutRead>) {
    |StreamedLines(stdout)| < |stdout| && stdout[|StreamedLines(stdout)|] == ReadRaises
  }

  /** The stream of `pipExec` ends in an exception: a read raised, or the
      stream ended and pip exited with a non-zero code. The exit code is
      only looked at once the stream has ended. */
  predicate EndsInFailure(run: PipRun) {
    StreamRaises(run.stdout) || run.exitCode != 0
  }

  function LineEvents(lines: seq<string>): (r: seq<PipEvent>)
    ensures |r| == |lines| && forall i :: 0 <= i < |lines| ==> r[i] == Line(lines[i])
  {
    seq(|lines|, i requires 0 <= i < |lines| => Line(lines[i]))
  }

  /** The failure that closes the events of `run`, if any. */
  function FailureTail(run: PipRun): seq<PipEvent> {
    if EndsInFailure(run) then [PipFailed] else []
  }

  /** `PIPRunner.pipExec`: every stdout line in order, then a single failure
      when a read raised or, after the end of stream, the exit code is not
      zero. */
  function PipExec(run: PipRun): (r: seq<PipEvent>)
    ensures var lines := StreamedLines(run.stdout);
      && |r| == |lines| + (if EndsInFailure(run) then 1 else 0)
      && (forall i :: 0 <= i < |lines| ==> r[i] == Line(lines[i]))
      && (EndsInFailure(run) ==> r[|r| - 1] == PipFailed)
  {
    LineEvents(StreamedLines(run.stdout)) + FailureTail(run)
  }

  /** The events of a run never report a failure before its last line, and
      report one only when a read raised or pip exited with a non-zero
      code. */
  lemma PipExecFailsLast(run: PipRun, i: nat)
    requires i < |PipExec(run)| && PipExec(run)[i] == PipFailed
    ensures i == |PipExec(run)| - 1
    ensures StreamRaises(run.stdout) || run.exitCode != 0
  {
  }

  /** Reads that return each of `lines` in turn. */
  function Reads(lines: seq<string>): (r: seq<StdoutRead>)
    ensures |r| == |lines| && forall i :: 0 <= i < |lines| ==> r[i] == Read(lines[i])
  {
    seq(|lines|, i requires 0 <= i < |lines| => Read(lines[i]))
  }

  /** A read that raises ends the stream whatever the exit code: the lines
      before it are yielded, then the failure. */
  lemma PipExecRaisesMidStream(lines: seq<string>, rest: seq<StdoutRead>, code: int)
    requires forall i :: 0 <= i < |lines| ==> lines[i] != ""
    ensures PipExec(PipRun(Reads(lines) + [ReadRaises] + rest, code)) == LineEvents(lines) + [PipFailed]
  {
    StreamedLinesOfReads(lines, ReadRaises, rest);
  }

  /** The streamed lines of reads `lines` followed by a stopping read. */
  lemma StreamedLinesOfReads(lines: seq<string>, stop: StdoutRead, rest: seq<StdoutRead>)
    requires forall i :: 0 <= i < |lines| ==> lines[i] != ""
    requires stop == Read("") || stop == ReadRaises
    ensures var stdout := Reads(lines) + [stop] + rest;
      StreamedLines(stdout) == lines && stdout[|lines|] == stop
  {
    var stdout := Reads(lines) + [stop] + rest;
    var r := StreamedLines(stdout);
    assert forall i :: 0 <= i < |lines| ==> stdout[i] == Read(lines[i]);
    assert stdout[|lines|] == stop;
    assert |r| >= |lines|;
    assert |r| == |lines|;
    assert forall i :: 0 <= i < |r| ==> r[i] == lines[i];
  }

  // ---- pipPackageVersion ----------------------------------------------

  predicate IsVersionChar(c: char) {
    IsDigit(c) || c == '.'
  }

  const VersionLabel: string := "Version:"

  /** The pattern `Version:\s([\d\.]+)` matches at index `i`. */
  predicate VersionMatchAt(line: string, i: nat) {
    && OccursAt(line, VersionLabel, i)
    && i + |VersionLabel| + 1 < |line|
    && IsSpace(line[i + |VersionLabel|])
    && IsVersionChar(line[i + |VersionLabel| + 1])
  }

  /** The capture group of a match at `i`: the longest run of digits and
      dots after the whitespace character. */
  function VersionCapture(line: string, i: nat): (cap: string)
    requires VersionMatchAt(line, i)
    ensures cap != ""
    ensures forall k :: 0 <= k < |cap| ==> IsVersionChar(cap[k])
    ensures var j := i + |VersionLabel| + 1;
      && j + |cap| <= |line| && cap == line[j..j + |cap|]
      && (j + |cap| == |line| || !IsVersionChar(line[j + |cap|]))
  {
    var j := i + |VersionLabel| + 1;
    line[j..SpanEnd(line, j, IsVersionChar)]
  }

  /** `re.search(r'Version:\s([\d\.]+)', line)` and its group 1: the
      leftmost match wins. */
  function SearchVersion(line: string): (r: Option<string>)
    ensures r.None? <==> forall i: nat :: i < |line| ==> !VersionMatchAt(line, i)
    ensures r.Some? ==> exists i: nat :: i < |line| && VersionMatchAt(line, i)
                          && (forall k: nat :: k < i ==> !VersionMatchAt(line, k))
                          && r.value == VersionCapture(line, i)
  {
    var matches := (i: nat) => VersionMatchAt(line, i);
    assert forall i: nat :: matches(i) == VersionMatchAt(line, i);
    match FindFirst(matches, 0, |line|)
    case Some(i) => Some(VersionCapture(line, i))
    case None => None
  }

  /** The loop of `pipPackageVersion` over the events of `pip show`: the
      first line that matches decides (`StrictVersion` of its capture, or
      `None` when that raises); a failure or the end of the stream gives
      `None`. */
  function VersionFromEvents(events: seq<PipEvent>): Option<Version>
    decreases |events|
  {
    if |events| == 0 then None
    else match events[0]
      case PipFailed => None
      case Line(text) =>
        match SearchVersion(text)
        case Some(cap) => ParseVersion(cap)
        case None => VersionFromEvents(events[1..])
  }

  /** `PIPRunner.pipPackageVersion`. */
  function PipPackageVersion(run: PipRun): (r: Option<Version>)
    ensures r == VersionFromLines(StreamedLines(run.stdout))
  {
    VersionFromEventsLines(StreamedLines(run.stdout), FailureTail(run));
    VersionFromEvents(PipExec(run))
  }

  /** Reading the version off a list of lines: the decision made by the
      first matching line. */
  function VersionFromLines(lines: seq<string>): Option<Version>
    decreases |lines|
  {
    if |lines| == 0 then None
    else match SearchVersion(lines[0])
      case Some(cap) => ParseVersion(cap)
      case None => VersionFromLines(lines[1..])
  }

  lemma {:induction false} VersionFromEventsLines(lines: seq<string>, tail: seq<PipEvent>)
    requires tail == [] || tail == [PipFailed]
    ensures VersionFromEvents(LineEvents(lines) + tail) == VersionFromLines(lines)
    decreases |lines|
  {
    var events := LineEvents(lines) + tail;
    if |lines| > 0 {
      assert events[0] == Line(lines[0]);
      assert events[1..] == LineEvents(lines[1..]) + tail;
      VersionFromEventsLines(lines[1..], tail);
    }
  }

  /** `pipPackageVersion` returns what the first line matching
      `Version:\s([\d\.]+)` parses to. */
  lemma {:induction false} PipVersionFirstMatch(run: PipRun, k: nat)
    requires k < |StreamedLines(run.stdout)|
    requires SearchVersion(StreamedLines(run.stdout)[k]).Some?
    requires forall j :: 0 <= j < k ==> SearchVersion(StreamedLines(run.stdout)[j]).None?
    ensures PipPackageVersion(run) ==
              ParseVersion(SearchVersion(StreamedLines(run.stdout)[k]).value)
  {
    var lines := StreamedLines(run.stdout);
    VersionFromEventsLines(lines, FailureTail(run));
    FirstMatchLines(lines, k);
  }

  lemma {:induction false} FirstMatchLines(lines: seq<string>, k: nat)
    requires k < |lines| && SearchVersion(lines[k]).Some?
    requires forall j :: 0 <= j < k ==> SearchVersion(lines[j]).None?
    ensures VersionFromLines(lines) == ParseVersion(SearchVersion(lines[k]).value)
    decreases k
  {
    if k > 0 {
      FirstMatchLines(lines[1..], k - 1);
    }
  }

  /** No matching line (whatever pip's exit code) means `None`. */
  lemma {:induction false} PipVersionNoMatch(run: PipRun)
    requires forall j :: 0 <= j < |StreamedLines(run.stdout)| ==>
               SearchVersion(StreamedLines(run.stdout)[j]).None?
    ensures PipPackageVersion(run) == None
  {
    var lines := StreamedLines(run.stdout);
    VersionFromEventsLines(lines, FailureTail(run));
    NoMatchLines(lines);
  }

  lemma {:induction false} NoMatchLines(lines: seq<string>)
    requires forall j :: 0 <= j < |lines| ==> SearchVersion(lines[j]).None?
    ensures VersionFromLines(lines) == None
    decreases |lines|
  {
    if |lines| > 0 {
      NoMatchLines(lines[1..]);
    }
  }

  /** The exit code of `pip show` never changes the version found: a
      failure is raised only after every line was looked at, and it maps to
      `None` just as the end of the stream does. */
  lemma PipVersionIgnoresExitCode(run: PipRun, code: int)
    ensures PipPackageVersion(PipRun(run.stdout, code)) == PipPackageVersion(run)
  {
    var lines := StreamedLines(run.stdout);
    VersionFromEventsLines(lines, FailureTail(run));
    VersionFromEventsLines(lines, FailureTail(PipRun(run.stdout, code)));
  }

  // ---- pipInstallWheel and installWheel ---------------------------------

  /** The lines carried by a sequence of events. */
  function EventLines(events: seq<PipEvent>): seq<string>
    decreases |events|
  {
    if |events| == 0 then []
    else match events[0]
      case Line(text) => [text] + EventLines(events[1..])
      case PipFailed => EventLines(events[1..])
  }

  lemma {:induction false} EventLinesOf(lines: seq<string>, tail: seq<PipEvent>)
    requires tail == [] || tail == [PipFailed]
    ensures EventLines(LineEvents(lines) + tail) == lines
    decreases |lines|
  {
    var events := LineEvents(lines) + tail;
    if |lines| > 0 {
      assert events[0] == Line(lines[0]);
      assert events[1..] == LineEvents(lines[1..]) + tail;
      EventLinesOf(lines[1..], tail);
    } else if tail == [PipFailed] {
      assert events == [PipFailed];
      assert events[1..] == [];
    }
  }

  /** `PIPRunner.pipInstallWheel`: the output lines of `pip install`, with a
      pip failure swallowed, so its consumer sees the same lines whatever
      the exit code. */
  function PipInstallWheel(run: PipRun): (r: seq<string>)
    ensures r == StreamedLines(run.stdout)
  {
    EventLinesOf(StreamedLines(run.stdout), FailureTail(run));
    EventLines(PipExec(run))
  }

  const CollectingLabel: string := "Collecting"
  const InstallingLabel: string := "Installing collected packages: "
  const SuccessLabel: string := "Successfully installed"
  const InstallingNotice: string := "Installing galacteek"
  const SuccessNotice: string := "Install successfull"

  /** `re.search(r'Collecting\s.*', msg)` succeeds. */
  predicate CollectingMatch(msg: string) {
    exists i :: 0 <= i < |msg| && OccursAt(msg, CollectingLabel, i)
                && i + |CollectingLabel| < |msg| && IsSpace(msg[i + |CollectingLabel|])
  }

  /** `Installing collected packages: (.*)$` matches at `i`: the rest of the
      message holds no newline, except possibly as its last character. */
  predicate InstallingMatchAt(msg: string, i: nat) {
    && OccursAt(msg, InstallingLabel, i)
    && SpanEnd(msg, i + |InstallingLabel|, c => c != '\n') + 1 >= |msg|
  }

  predicate InstallingMatch(msg: string) {
    exists i :: 0 <= i < |msg| && InstallingMatchAt(msg, i)
  }

  predicate SuccessMatch(msg: string) {
    Contains(msg, SuccessLabel)
  }

  /** A pattern whose first character does not occur in `s` does not occur
      in `s` at all. */
  lemma AbsentFirstChar(s: string, pat: string, i: nat)
    requires |pat| > 0 && forall k :: 0 <= k < |s| ==> s[k] != pat[0]
    ensures !OccursAt(s, pat, i)
  {
    if i + |pat| <= |s| {
      assert s[i..i + |pat|][0] != pat[0];
    }
  }

  /** Neither notice is itself a "Collecting" line. */
  lemma NoticesAreNotCollecting()
    ensures !CollectingMatch(InstallingNotice)
    ensures !CollectingMatch(SuccessNotice)
  {
    forall i: nat | i < |InstallingNotice|
      ensures !OccursAt(InstallingNotice, CollectingLabel, i)
    {
      AbsentFirstChar(InstallingNotice, CollectingLabel, i);
    }
    forall i: nat | i < |SuccessNotice|
      ensures !OccursAt(SuccessNotice, CollectingLabel, i)
    {
      AbsentFirstChar(SuccessNotice, CollectingLabel, i);
    }
  }

  /** The notices `installWheel` logs for one line of pip output. The three
      checks are independent, so one line can give several notices. */
  function Classify(msg: string): (logs: seq<string>)
    ensures |logs| == (if CollectingMatch(msg) then 1 else 0) + (if InstallingMatch(msg) then 1 else 0)
                      + (if SuccessMatch(msg) then 1 else 0)
    ensures logs == [] <==> !CollectingMatch(msg) && !InstallingMatch(msg) && !SuccessMatch(msg)
    ensures CollectingMatch(msg) <==> |logs| > 0 && logs[0] == msg
    ensures InstallingMatch(msg) <==> InstallingNotice in logs
    ensures SuccessMatch(msg) <==> SuccessNotice in logs
    ensures SuccessMatch(msg) ==> logs[|logs| - 1] == SuccessNotice
    ensures InstallingMatch(msg) ==> logs[|logs| - 1 - (if SuccessMatch(msg) then 1 else 0)] == InstallingNotice
  {
    NoticesAreNotCollecting();
    (if CollectingMatch(msg) then [msg] else [])
    + (if InstallingMatch(msg) then [InstallingNotice] else [])
    + (if SuccessMatch(msg) then [SuccessNotice] else [])
  }

  /** All notices logged while `installWheel` consumes `lines`, in order. */
  function InstallLogs(lines: seq<string>): (logs: seq<string>)
    ensures |logs| <= 3 * |lines|
    decreases |lines|
  {
    if |lines| == 0 then [] else Classify(lines[0]) + InstallLogs(lines[1..])
  }

  lemma AppendAssoc(x: seq<string>, y: seq<string>, z: seq<string>)
    ensures x + (y + z) == (x + y) + z
  {
  }

  /** One step of `InstallLogs`. */
  lemma InstallLogsCons(lines: seq<string>)
    requires |lines| > 0
    ensures InstallLogs(lines) == Classify(lines[0]) + InstallLogs(lines[1..])
  {
  }

  /** Classification is line by line: the notices of a concatenation are
      the notices of each part, in order. */
  lemma {:induction false} InstallLogsAppend(a: seq<string>, b: seq<string>)
    ensures InstallLogs(a + b) == InstallLogs(a) + InstallLogs(b)
    decreases |a|
  {
    if |a| > 0 {
      assert (a + b)[0] == a[0];
      assert (a + b)[1..] == a[1..] + b;
      InstallLogsCons(a + b);
      InstallLogsCons(a);
      InstallLogsAppend(a[1..], b);
      AppendAssoc(Classify(a[0]), InstallLogs(a[1..]), InstallLogs(b));
    } else {
      assert a + b == b;
    }
  }

  /** A line that matches none of the three patterns logs nothing. */
  lemma InstallLogsSkipsOther(a: seq<string>, line: string, b: seq<string>)
    requires !CollectingMatch(line) && !InstallingMatch(line) && !SuccessMatch(line)
    ensures InstallLogs(a + [line] + b) == InstallLogs(a) + InstallLogs(b)
  {
    assert [line][1..] == [];
    InstallLogsCons([line]);
    assert InstallLogs([line]) == [];
    InstallLogsAppend(a, [line]);
    assert InstallLogs(a + [line]) == InstallLogs(a);
    InstallLogsAppend(a + [line], b);
  }

  datatype InstallOutcome = InstallOutcome(logs: seq<string>, succeeded: bool)

  /** `installWheel`: the notices for each output line of `pip install`,
      and the returned flag, which is always true because
      `pipInstallWheel` swallows a pip failure. */
  function InstallWheel(run: PipRun): (r: InstallOutcome)
    ensures r.succeeded
    ensures r.logs == InstallLogs(StreamedLines(run.stdout))
  {
    InstallOutcome(InstallLogs(PipInstallWheel(run)), true)
  }
}

=== FILE: setup_parse.dfy ===
/** The build-time parsing in setup.py: the split of `requirements.txt`
    into editable links and plain requirements, and the `__version__`
    lookup in the package's `__init__.py`. File reading is left to the
    caller: the inputs are the file's lines, or its text. */
module SetupParse {
  import opened Wrappers
  import opened Text

  /** `line.startswith('-e')`. */
  predicate IsEditable(line: string) {
    |line| >= 2 && line[..2] == "-e"
  }

  /** `line.split().pop()`: the last whitespace-separated token of an
      editable line. The line starts with `-e`, so it has at least one
      token and `pop()` does not raise. */
  function LastWord(line: string): (w: string)
    requires IsEditable(line)
    ensures w != ""
    ensures forall i :: 0 <= i < |w| ==> !IsSpace(w[i])
    ensures exists k: nat :: TrailingToken(line, w, k)
  {
    var words := Words(line);
    WordsLastTrailing(line, words[|words| - 1]);
    words[|words| - 1]
  }

  datatype Requirements = Requirements(links: seq<string>, reqs: seq<string>)

  /** The loop over the lines of `requirements.txt`: an editable line adds
      its last token to `deps_links`, every other line (an empty one too)
      goes unchanged to `install_reqs`. */
  function PartitionRequirements(lines: seq<string>): (r: Requirements)
    ensures |r.links| + |r.reqs| == |lines|
    ensures forall k :: 0 <= k < |r.reqs| ==> r.reqs[k] in lines && !IsEditable(r.reqs[k])
    ensures forall k :: 0 <= k < |r.links| ==>
              r.links[k] != "" && forall i :: 0 <= i < |r.links[k]| ==> !IsSpace(r.links[k][i])
    decreases |lines|
  {
    if |lines| == 0 then Requirements([], [])
    else
      var before := PartitionRequirements(lines[..|lines| - 1]);
      var line := lines[|lines| - 1];
      if IsEditable(line) then Requirements(before.links + [LastWord(line)], before.reqs)
      else Requirements(before.links, before.reqs + [line])
  }

  /** Both lists keep the file's order: partitioning a concatenation
      partitions each part and concatenates the results. */
  lemma {:induction false} PartitionAppend(a: seq<string>, b: seq<string>)
    ensures PartitionRequirements(a + b).links == PartitionRequirements(a).links + PartitionRequirements(b).links
    ensures PartitionRequirements(a + b).reqs == PartitionRequirements(a).reqs + PartitionRequirements(b).reqs
    decreases |b|
  {
    if |b| == 0 {
      assert a + b == a;
    } else {
      var b' := b[..|b| - 1];
      assert (a + b)[..|a + b| - 1] == a + b';
      assert (a + b)[|a + b| - 1] == b[|b| - 1];
      PartitionAppend(a, b');
    }
  }

  /** Without editable lines every line is a requirement, unchanged and in
      order. */
  lemma {:induction false} PartitionPlain(lines: seq<string>)
    requires forall k :: 0 <= k < |lines| ==> !IsEditable(lines[k])
    ensures PartitionRequirements(lines) == Requirements([], lines)
    decreases |lines|
  {
    if |lines| > 0 {
      PartitionPlain(lines[..|lines| - 1]);
      assert lines[..|lines| - 1] + [lines[|lines| - 1]] == lines;
    }
  }

  /** One line of the file: an editable line adds its last whitespace-
      separated token to the links, any other line is kept as a
      requirement. With `PartitionAppend` this fixes the partition of every
      file. */
  lemma PartitionLine(line: string)
    ensures PartitionRequirements([line])
         == if IsEditable(line) then Requirements([LastWord(line)], []) else Requirements([], [line])
  {
    var single: seq<string> := [line];
    assert single[..0] == [];
  }

  /** An `-e <link>` line contributes exactly its link. */
  lemma EditableLink(link: string)
    requires link != "" && forall i :: 0 <= i < |link| ==> !IsSpace(link[i])
    ensures PartitionRequirements(["-e " + link]) == Requirements([link], [])
  {
    var line := "-e " + link;
    assert IsEditable(line);
    assert line[2..] == " " + link;
    assert SpanEnd(line, 0, c => !IsSpace(c)) == 2 by {
      assert !IsSpace(line[0]) && !IsSpace(line[1]) && IsSpace(line[2]);
    }
    assert Words(line) == [line[..2]] + Words(line[2..]);
    assert (" " + link)[1..] == link;
    assert Words(" " + link) == Words(link);
    assert SpanEnd(link, 0, c => !IsSpace(c)) == |link|;
    assert link[|link|..] == [];
    assert link[..|link|] == link;
    assert Words(link[|link|..]) == [];
    assert Words(link) == [link];
    var single: seq<string> := [line];
    assert single[..0] == [];
    assert PartitionRequirements(["-e " + link]) == PartitionRequirements(single);
  }

  const VersionPrefix: string := "__version__ = '"

  /** `^__version__ = '([^']+)'\r?$` (with `re.M`) matches at `p`: `p`
      starts a line, the quoted value is non-empty (it may span lines), and
      the closing quote is followed by the end of a line, optionally after a
      carriage return. */
  predicate VersionLineAt(text: string, p: nat) {
    && OccursAt(text, VersionPrefix, p)
    && (p == 0 || text[p - 1] == '\n')
    && var j := p + |VersionPrefix|;
       var k := SpanEnd(text, j, c => c != '\'');
       && j < k < |text|
       && (|| k + 1 == |text|
           || text[k + 1] == '\n'
           || (text[k + 1] == '\r' && (k + 2 == |text| || text[k + 2] == '\n')))
  }

  /** The capture group of a match at `p`. */
  function VersionCaptureAt(text: string, p: nat): (v: string)
    requires VersionLineAt(text, p)
    ensures v != "" && forall i :: 0 <= i < |v| ==> v[i] != '\''
    ensures var j := p + |VersionPrefix|;
      j + |v| < |text| && v == text[j..j + |v|] && text[j + |v|] == '\''
  {
    var j := p + |VersionPrefix|;
    text[j..SpanEnd(text, j, c => c != '\'')]
  }

  /** `re.findall(...)[0]`, or the `RuntimeError` raised when nothing
      matches. */
  function ExtractVersion(text: string): (r: Result<string, string>)
    ensures r.Failure? <==> forall p: nat :: p < |text| ==> !VersionLineAt(text, p)
    ensures r.Failure? ==> r.error == "Unable to determine version."
    ensures r.Success? ==> exists p: nat :: p < |text| && VersionLineAt(text, p)
                             && (forall q: nat :: q < p ==> !VersionLineAt(text, q))
                             && r.value == VersionCaptureAt(text, p)
  {
    var matches := (p: nat) => VersionLineAt(text, p);
    assert forall p: nat :: matches(p) == VersionLineAt(text, p);
    match FindFirst(matches, 0, |text|)
    case Some(p) => Success(VersionCaptureAt(text, p))
    case None => Failure("Unable to determine version.")
  }

  /** A version line at the very start of the text. */
  lemma VersionLineAtStart(text: string, v: string)
    requires v != "" && forall i :: 0 <= i < |v| ==> v[i] != '\''
    requires |text| >= |VersionPrefix| + |v| + 2
    requires text[..|VersionPrefix|] == VersionPrefix
    requires text[|VersionPrefix|..|VersionPrefix| + |v|] == v
    requires text[|VersionPrefix| + |v|] == '\'' && text[|VersionPrefix| + |v| + 1] == '\n'
    ensures VersionLineAt(text, 0) && VersionCaptureAt(text, 0) == v
  {
  }

  /** A file that starts with the version line yields that version. */
  lemma VersionOnFirstLine(v: string, rest: string)
    requires v != "" && forall i :: 0 <= i < |v| ==> v[i] != '\''
    ensures ExtractVersion(VersionPrefix + v + "'\n" + rest) == Success(v)
  {
    var text := VersionPrefix + v + "'\n" + rest;
    var j := |VersionPrefix|;
    assert text[..j] == VersionPrefix;
    assert text[j..j + |v|] == v;
    assert text[j + |v|] == '\'' && text[j + |v| + 1] == '\n';
    VersionLineAtStart(text, v);
  }
}

=== FILE: text.dfy ===
/** Character classes, scanning and splitting shared by the regular
    expressions and string methods the installer uses. Strings are
    `seq<char>`; Python's `str` methods are stated here in their own terms. */
module Text {
  import opened Wrappers

  /** The characters Python's `str.isspace()` accepts; `str.split()` and the
      `\s` class of `re` split on exactly these. */
  predicate IsSpace(c: char) {
    || ('\t' <= c <= '\r')
    || ('\U{1C}' <= c <= ' ')
    || c == '\U{85}' || c == '\U{A0}' || c == '\U{1680}'
    || ('\U{2000}' <= c <= '\U{200A}')
    || c == '\U{2028}' || c == '\U{2029}' || c == '\U{202F}'
    || c == '\U{205F}' || c == '\U{3000}'
  }

  /** An ASCII decimal digit (`\d` restricted to ASCII). */
  predicate IsDigit(c: char) {
    '0' <= c <= '9'
  }

  /** A non-empty run of ASCII digits. */
  predicate IsNumeral(s: string) {
    |s| > 0 && forall i :: 0 <= i < |s| ==> IsDigit(s[i])
  }

  /** `pat` occurs in `s` starting at index `i`. */
  predicate OccursAt(s: string, pat: string, i: nat) {
    i + |pat| <= |s| && s[i..i + |pat|] == pat
  }

  /** `pat` occurs somewhere in `s` (Python's `pat in s`). */
  predicate Contains(s: string, pat: string) {
    exists i :: 0 <= i <= |s| && OccursAt(s, pat, i)
  }

  /** The first index in `[from, n)` satisfying `p`: what a left-to-right
      scan such as `re.search` finds. */
  function FindFirst(p: nat -> bool, from: nat, n: nat): (r: Option<nat>)
    ensures r.Some? ==> from <= r.value < n && p(r.value)
    ensures r.Some? ==> forall i: nat :: from <= i < r.value ==> !p(i)
    ensures r.None? ==> forall i: nat :: from <= i < n ==> !p(i)
    decreases n - from
  {
    if from >= n then None
    else if p(from) then Some(from)
    else FindFirst(p, from + 1, n)
  }

  /** Python's `s.find(c, from)`: the first index at or after `from`
      holding `c`. */
  function IndexOf(s: string, c: char, from: nat): (r: Option<nat>)
    ensures r.Some? ==> from <= r.value < |s| && s[r.value] == c
    ensures r.Some? ==> forall i :: from <= i < r.value ==> s[i] != c
    ensures r.None? ==> forall i :: from <= i < |s| ==> s[i] != c
    decreases |s| - from
  {
    if from >= |s| then None
    else if s[from] == c then Some(from)
    else IndexOf(s, c, from + 1)
  }

  /** Python's `s.rfind(c)`: the last index holding `c`. */
  function LastIndexOf(s: string, c: char): (r: Option<nat>)
    ensures r.Some? ==> r.value < |s| && s[r.value] == c
    ensures r.Some? ==> forall i :: r.value < i < |s| ==> s[i] != c
    ensures r.None? ==> forall i :: 0 <= i < |s| ==> s[i] != c
    decreases |s|
  {
    if |s| == 0 then None
    else if s[|s| - 1] == c then Some(|s| - 1)
    else LastIndexOf(s[..|s| - 1], c)
  }

  /** End of the longest run of characters satisfying `p` that starts at
      `from`: the extent of a greedy `[...]+` or `[^...]+` match. */
  function SpanEnd(s: string, from: nat, p: char -> bool): (k: nat)
    requires from <= |s|
    ensures from <= k <= |s|
    ensures forall i :: from <= i < k ==> p(s[i])
    ensures k < |s| ==> !p(s[k])
    decreases |s| - from
  {
    if from == |s| || !p(s[from]) then from else SpanEnd(s, from + 1, p)
  }

  /** Python's `s.split(sep)` for a one-character separator. */
  function Split(s: string, sep: char): (r: seq<string>)
    ensures |r| >= 1
    ensures forall i :: 0 <= i < |r| ==> sep !in r[i]
    decreases |s|
  {
    var k := SpanEnd(s, 0, c => c != sep);
    if k == |s| then [s] else [s[..k]] + Split(s[k + 1..], sep)
  }

  /** Python's `sep.join(parts)`. */
  function Join(parts: seq<string>, sep: char): string {
    if |parts| == 0 then ""
    else if |parts| == 1 then parts[0]
    else parts[0] + [sep] + Join(parts[1..], sep)
  }

  /** A separator that does not occur in the first field ends that field. */
  lemma SplitCons(a: string, rest: string, sep: char)
    requires sep !in a
    ensures Split(a + [sep] + rest, sep) == [a] + Split(rest, sep)
  {
    var s := a + [sep] + rest;
    var k := SpanEnd(s, 0, c => c != sep);
    assert s[|a|] == sep;
    assert forall i :: 0 <= i < |a| ==> s[i] == a[i];
    assert k == |a|;
    assert s[..k] == a;
    assert s[k + 1..] == rest;
  }

  /** `Split` undoes `Join` whenever no part contains the separator. */
  lemma {:induction false} SplitJoin(parts: seq<string>, sep: char)
    requires |parts| >= 1
    requires forall i :: 0 <= i < |parts| ==> sep !in parts[i]
    ensures Split(Join(parts, sep), sep) == parts
    decreases |parts|
  {
    if |parts| == 1 {
      var s := parts[0];
      assert forall i :: 0 <= i < |s| ==> s[i] != sep;
    } else {
      SplitJoin(parts[1..], sep);
      SplitCons(parts[0], Join(parts[1..], sep), sep);
      assert [parts[0]] + parts[1..] == parts;
    }
  }

  /** Python's `s.split()` with no argument: the maximal runs of
      non-whitespace characters, in order. */
  function Words(s: string): (r: seq<string>)
    ensures forall i :: 0 <= i < |r| ==> |r[i]| > 0
    ensures forall i, j :: 0 <= i < |r| && 0 <= j < |r[i]| ==> !IsSpace(r[i][j])
    ensures |s| > 0 && !IsSpace(s[0]) ==> |r| > 0 && r[0] == s[..SpanEnd(s, 0, c => !IsSpace(c))]
    decreases |s|
  {
    if |s| == 0 then []
    else if IsSpace(s[0]) then Words(s[1..])
    else
      var k := SpanEnd(s, 0, c => !IsSpace(c));
      [s[..k]] + Words(s[k..])
  }

  /** `w` occurs at `k` in `s` as its trailing token: it starts the string
      or follows whitespace, and only whitespace comes after it. */
  predicate TrailingToken(s: string, w: string, k: nat) {
    && k + |w| <= |s| && s[k..k + |w|] == w
    && (k == 0 || IsSpace(s[k - 1]))
    && forall j :: k + |w| <= j < |s| ==> IsSpace(s[j])
  }

  /** A string without words is all whitespace. */
  lemma {:induction false} WordsNoneAllSpace(s: string)
    requires Words(s) == []
    ensures forall i :: 0 <= i < |s| ==> IsSpace(s[i])
    decreases |s|
  {
    if |s| > 0 {
      WordsNoneAllSpace(s[1..]);
      forall i | 0 <= i < |s|
        ensures IsSpace(s[i])
      {
        if i > 0 {
          assert s[i] == s[1..][i - 1];
        }
      }
    }
  }

  /** The last word of `s.split()` is the trailing token of `s`. */
  lemma WordsLastTrailing(s: string, w: string)
    requires Words(s) != [] && w == Words(s)[|Words(s)| - 1]
    ensures exists k: nat :: TrailingToken(s, w, k)
  {
    var k := WordsLastAt(s, w);
  }

  /** Where the last word of `s.split()` starts. */
  lemma {:induction false} WordsLastAt(s: string, w: string) returns (k: nat)
    requires Words(s) != [] && w == Words(s)[|Words(s)| - 1]
    ensures TrailingToken(s, w, k)
    decreases |s|, 1
  {
    if IsSpace(s[0]) {
      k := WordsLastAfterSpace(s, w);
    } else {
      k := WordsLastAfterWord(s, w);
    }
  }

  lemma {:induction false} WordsLastAfterSpace(s: string, w: string) returns (k: nat)
    requires |s| > 0 && IsSpace(s[0])
    requires Words(s) != [] && w == Words(s)[|Words(s)| - 1]
    ensures TrailingToken(s, w, k)
    decreases |s|, 0
  {
    var t := s[1..];
    assert Words(s) == Words(t);
    var k' := WordsLastAt(t, w);
    k := k' + 1;
    assert s[k..k + |w|] == t[k'..k' + |w|];
    forall j | k + |w| <= j < |s|
      ensures IsSpace(s[j])
    {
      assert s[j] == t[j - 1];
    }
    assert k' == 0 || s[k'] == t[k' - 1];
  }

  lemma {:induction false} WordsLastAfterWord(s: string, w: string) returns (k: nat)
    requires |s| > 0 && !IsSpace(s[0])
    requires Words(s) != [] && w == Words(s)[|Words(s)| - 1]
    ensures TrailingToken(s, w, k)
    decreases |s|, 0
  {
    var k0 := SpanEnd(s, 0, c => !IsSpace(c));
    var rest := s[k0..];
    assert Words(s) == [s[..k0]] + Words(rest);
    if Words(rest) == [] {
      WordsNoneAllSpace(rest);
      k := 0;
      LastWordIsFirst(s, k0);
    } else {
      assert w == Words(rest)[|Words(rest)| - 1];
      var k' := WordsLastAt(rest, w);
      k := k0 + k';
      TrailingAfter(s, k0, w, k');
    }
  }

  /** The first word is the trailing token when only whitespace follows it. */
  lemma LastWordIsFirst(s: string, k0: nat)
    requires k0 <= |s|
    requires forall i :: 0 <= i < |s| - k0 ==> IsSpace(s[k0..][i])
    ensures TrailingToken(s, s[..k0], 0)
  {
    forall j | k0 <= j < |s|
      ensures IsSpace(s[j])
    {
      assert s[j] == s[k0..][j - k0];
    }
  }

  /** A trailing token of `s[k0..]` that does not start it, when `s[k0]` is
      whitespace, is a trailing token of `s`. */
  lemma TrailingAfter(s: string, k0: nat, w: string, k': nat)
    requires k0 < |s| && IsSpace(s[k0])
    requires |w| > 0 && !IsSpace(w[0])
    requires TrailingToken(s[k0..], w, k')
    ensures TrailingToken(s, w, k0 + k')
  {
    var rest := s[k0..];
    assert rest[k'] == w[0] by {
      assert rest[k'..k' + |w|][0] == w[0];
    }
    assert k' > 0;
    var k := k0 + k';
    assert s[k..k + |w|] == rest[k'..k' + |w|];
    assert s[k - 1] == rest[k' - 1];
    forall j | k + |w| <= j < |s|
      ensures IsSpace(s[j])
    {
      assert s[j] == rest[j - k0];
    }
  }

  /** The decimal digit character for `d`. */
  function DigitChar(d: nat): (c: char)
    requires d < 10
    ensures IsDigit(c)
  {
    ['0', '1', '2', '3', '4', '5', '6', '7', '8', '9'][d]
  }

  /** The value of a digit character. */
  function DigitValue(c: char): (d: nat)
    requires IsDigit(c)
    ensures d < 10 && DigitChar(d) == c
  {
    (c as int - '0' as int) as nat
  }

  /** Python's `str(n)` for a natural number: decimal, no leading zeros. */
  function NatToString(n: nat): (s: string)
    ensures IsNumeral(s)
    ensures s[0] == '0' ==> n == 0 && s == "0"
    decreases n
  {
    if n < 10 then [DigitChar(n)] else NatToString(n / 10) + [DigitChar(n % 10)]
  }

  /** Python's `int(s)` on a numeral (leading zeros allowed). */
  function ParseNat(s: string): nat
    requires forall i :: 0 <= i < |s| ==> IsDigit(s[i])
    decreases |s|
  {
    if |s| == 0 then 0 else ParseNat(s[..|s| - 1]) * 10 + DigitValue(s[|s| - 1])
  }

  /** Parsing the decimal rendering of a number gives that number back. */
  lemma {:induction false} ParseNatToString(n: nat)
    ensures ParseNat(NatToString(n)) == n
    decreases n
  {
    var s := NatToString(n);
    if n < 10 {
      assert s[..0] == [];
    } else {
      ParseNatToString(n / 10);
      assert s[..|s| - 1] == NatToString(n / 10);
      assert DigitValue(s[|s| - 1]) == n % 10;
    }
  }
}

=== FILE: upgrade.dfy ===
/** `upgrade`, `fetchWheel` and the decision around `installWheel`
    (installer.py). The registry document, each wheel download and each pip
    run are inputs. */
module Upgrade {
  import opened Wrappers
  import opened Text
  import opened Versions
  import opened Paths
  import opened Download
  import opened Pip

  /** One entry of a release's file list: its `url` and `packagetype`
      (the key may be absent). */
  datatype Artifact = Artifact(url: string, packagetype: Option<string>)

  /** The parts of the registry document `upgrade` reads: `info.version`
      and the `releases` mapping, which may be missing. */
  datatype PkgInfo = PkgInfo(version: string, releases: Option<map<string, seq<Artifact>>>)

  /** The `KeyError` raised by `info['releases'][str(lRelease)]`. */
  datatype UpgradeError = MissingRelease(key: string)

  predicate IsWheel(a: Artifact) {
    a.packagetype == Some("bdist_wheel")
  }

  /** The entries the loop of `upgrade` does not skip. */
  function Wheels(release: seq<Artifact>): (r: seq<Artifact>)
    ensures |r| <= |release|
    ensures forall k :: 0 <= k < |r| ==> IsWheel(r[k]) && r[k] in release
    ensures forall a :: a in release && IsWheel(a) ==> a in r
    decreases |release|
  {
    if |release| == 0 then []
    else (if IsWheel(release[0]) then [release[0]] else []) + Wheels(release[1..])
  }

  /** The wheel filter keeps list order: the wheels of a concatenation are
      the wheels of each part, in turn. */
  lemma {:induction false} WheelsAppend(a: seq<Artifact>, b: seq<Artifact>)
    ensures Wheels(a + b) == Wheels(a) + Wheels(b)
    decreases |a|
  {
    if |a| == 0 {
      assert a + b == b;
    } else {
      assert (a + b)[0] == a[0];
      assert (a + b)[1..] == a[1..] + b;
      WheelsAppend(a[1..], b);
    }
  }

  /** A list made only of wheels is fetched entirely; one without wheels
      not at all. */
  lemma {:induction false} WheelsAllOrNone(release: seq<Artifact>)
    ensures (forall k :: 0 <= k < |release| ==> IsWheel(release[k])) ==> Wheels(release) == release
    ensures (forall k :: 0 <= k < |release| ==> !IsWheel(release[k])) ==> Wheels(release) == []
    decreases |release|
  {
    if |release| > 0 {
      var rest := release[1..];
      WheelsAllOrNone(rest);
      assert [release[0]] + rest == release;
      assert forall k :: 0 <= k < |rest| ==> rest[k] == release[k + 1];
      assert Wheels(release) == (if IsWheel(release[0]) then [release[0]] else []) + Wheels(rest);
    }
  }

  /** `getLatestRelease`: `parseVersion(info['version'])`. */
  function LatestRelease(info: PkgInfo): (r: Option<Version>)
    ensures info.version == "" ==> r.None?
    ensures forall v :: info.version == VersionString(v) ==> r == Some(v)
  {
    ParseVersionStrings();
    ParseVersion(info.version)
  }

  /** Every printed version parses back to itself. */
  lemma ParseVersionStrings()
    ensures forall v :: ParseVersion(VersionString(v)) == Some(v)
  {
    forall v {
      ParseVersionString(v);
    }
  }

  /** `str(lRelease)`, the key looked up in `releases`; it is `"None"` when
      the latest version did not parse. */
  function ReleaseKey(latest: Option<Version>): (key: string)
    ensures latest.Some? ==> ParseVersion(key) == latest
    ensures latest.None? ==> key == "None" && ParseVersion(key).None?
  {
    match latest
    case Some(v) => ParseVersionString(v); VersionString(v)
    case None => "None"
  }

  /** The wheels `upgrade` fetches, in list order: none when no upgrade is
      needed or `releases` is missing, and an error when the release key is
      not in `releases`. */
  function WheelsToFetch(info: PkgInfo, installed: Option<Version>): (r: Result<seq<Artifact>, UpgradeError>)
    ensures !NeedUpgrade(installed, LatestRelease(info)) || info.releases.None? ==> r == Success([])
    ensures r.Failure? <==> (&& NeedUpgrade(installed, LatestRelease(info))
                             && info.releases.Some?
                             && ReleaseKey(LatestRelease(info)) !in info.releases.value)
    ensures && NeedUpgrade(installed, LatestRelease(info))
            && info.releases.Some?
            && ReleaseKey(LatestRelease(info)) in info.releases.value
            ==> r == Success(Wheels(info.releases.value[ReleaseKey(LatestRelease(info))]))
  {
    var latest := LatestRelease(info);
    if !NeedUpgrade(installed, latest) then Success([])
    else match info.releases
      case None => Success([])
      case Some(releases) =>
        var key := ReleaseKey(latest);
        if key in releases then Success(Wheels(releases[key])) else Failure(MissingRelease(key))
  }

  /** A registry that lists the latest release under its printed version
      gets that release's wheels fetched. */
  lemma WheelsToFetchListed(info: PkgInfo, installed: Option<Version>, v: Version)
    requires info.version == VersionString(v)
    requires NeedUpgrade(installed, Some(v))
    requires info.releases.Some? && info.version in info.releases.value
    ensures WheelsToFetch(info, installed) == Success(Wheels(info.releases.value[info.version]))
  {
    ParseVersionString(v);
  }

  /** The release key drops a zero patch: a latest version published as
      `1.0.0` is looked up as `1.0`, so a registry that only lists `1.0.0`
      makes the lookup fail on a first install. */
  lemma ZeroPatchKeyMissed(wheel: Artifact)
    ensures var info := PkgInfo("1.0.0", Some(map["1.0.0" := [wheel]]));
      WheelsToFetch(info, None) == Failure(MissingRelease("1.0"))
  {
    var info := PkgInfo("1.0.0", Some(map["1.0.0" := [wheel]]));
    ParseOneZeroZero();
    PrintOneZeroZero();
    assert LatestRelease(info) == Some(Version(1, 0, 0));
    assert ReleaseKey(LatestRelease(info)) == "1.0";
  }

  /** The same for every release with a zero patch: when the latest
      version `a.b.0` is listed only under that name, a first install looks
      it up as `a.b` and fails. */
  lemma ZeroPatchKeyMissedAll(a: nat, b: nat, wheels: seq<Artifact>)
    ensures var listed := NatToString(a) + "." + NatToString(b) + ".0";
      WheelsToFetch(PkgInfo(listed, Some(map[listed := wheels])), None)
        == Failure(MissingRelease(VersionString(Version(a, b, 0))))
  {
    var listed := NatToString(a) + "." + NatToString(b) + ".0";
    var info := PkgInfo(listed, Some(map[listed := wheels]));
    var key := VersionString(Version(a, b, 0));
    ZeroPatchListing(a, b);
    assert LatestRelease(info) == Some(Version(a, b, 0));
    VersionStringForm(Version(a, b, 0));
    assert key != listed;
    LookupMisses(info, None, key);
  }

  /** A release key missing from `releases` is the lookup error. */
  lemma LookupMisses(info: PkgInfo, installed: Option<Version>, key: string)
    requires NeedUpgrade(installed, LatestRelease(info)) && info.releases.Some?
    requires ReleaseKey(LatestRelease(info)) == key && key !in info.releases.value
    ensures WheelsToFetch(info, installed) == Failure(MissingRelease(key))
  {
  }

  /** `a.b.0` parses to the version with a zero patch, and has three
      fields where its key has two. */
  lemma ZeroPatchListing(a: nat, b: nat)
    ensures var listed := NatToString(a) + "." + NatToString(b) + ".0";
      && ParseVersion(listed) == Some(Version(a, b, 0))
      && |Split(listed, '.')| == 3
  {
    var x, y, z := NatToString(a), NatToString(b), NatToString(0);
    assert z == "0";
    assert x + "." + y + ".0" == x + "." + y + "." + z;
    ParseVersionTriple(a, b, 0);
    assert '.' !in x && '.' !in y && '.' !in z by {
      assert forall i :: 0 <= i < |x| ==> IsDigit(x[i]);
      assert forall i :: 0 <= i < |y| ==> IsDigit(y[i]);
    }
    ThreeFields(x, y, z);
  }

  lemma ThreeFields(x: string, y: string, z: string)
    requires '.' !in x && '.' !in y && '.' !in z
    ensures |Split(x + "." + y + "." + z, '.')| == 3
  {
    JoinThree(x, y, z);
    SplitJoin([x, y, z], '.');
  }

  lemma ParseOneZeroZero()
    ensures ParseVersion("1.0.0") == Some(Version(1, 0, 0))
  {
    assert "1"[..0] == [] && "0"[..0] == [];
    assert ParseNat("1") == 1 && ParseNat("0") == 0;
    ParseVersionFields("1", "0", "0");
    assert "1" + "." + "0" + "." + "0" == "1.0.0";
  }

  lemma PrintOneZeroZero()
    ensures VersionString(Version(1, 0, 0)) == "1.0"
  {
    assert NatToString(1) == "1" && NatToString(0) == "0";
  }

  /** The path of the last completion event: `fetchWheel` overwrites
      `wheelPath` at each one. */
  function LastDonePath(events: seq<DownloadEvent>): (path: Option<string>)
    ensures path.Some? ==> exists k :: 0 <= k < |events| && events[k] == Done(path.value)
                            && forall j :: k < j < |events| ==> !events[j].Done?
    ensures path.None? ==> forall j :: 0 <= j < |events| ==> !events[j].Done?
    decreases |events|
  {
    if |events| == 0 then None
    else if events[|events| - 1].Done? then Some(events[|events| - 1].path)
    else LastDonePath(events[..|events| - 1])
  }

  /** `fetchWheel`: the downloaded file's path, or `None` when the download
      raised. */
  function FetchWheel(download: Result<seq<DownloadEvent>, DownloadError>): (path: Option<string>)
    ensures download.Failure? ==> path.None?
  {
    match download
    case Failure(_) => None
    case Success(events) => LastDonePath(events)
  }

  /** A download that is not refused yields the local file path, whether or
      not every declared byte arrived. */
  lemma FetchWheelOfDownload(tmpDir: string, url: string, status: int, contentLength: Option<int>,
                             chunks: seq<nat>)
    ensures FetchWheel(DownloadEvents(tmpDir, url, status, contentLength, chunks))
         == if NamesDirectory(FileName(url)) || status == 404 || contentLength.None? then None
            else Some(LocalPath(tmpDir, url))
  {
  }

  /** One iteration of the wheel loop in `upgrade`: the fetched path, the
      notices of the install, and whether "Upgrade success" is logged. */
  datatype WheelAttempt = WheelAttempt(wheel: Artifact, path: Option<string>, logs: seq<string>, upgraded: bool)

  /** Fetch a wheel and, when a non-empty path came back, install it. */
  function AttemptWheel(wheel: Artifact, download: Result<seq<DownloadEvent>, DownloadError>,
                        run: PipRun): (r: WheelAttempt)
    ensures r.wheel == wheel && r.path == FetchWheel(download)
    ensures r.upgraded <==> r.path.Some? && r.path.value != ""
    ensures !r.upgraded ==> r.logs == []
  {
    var path := FetchWheel(download);
    if path.Some? && path.value != "" then
      var outcome := InstallWheel(run);
      WheelAttempt(wheel, path, outcome.logs, outcome.succeeded)
    else WheelAttempt(wheel, path, [], false)
  }

  /** A pip failure is not seen by `upgrade`: the same download gives the
      same verdict whatever pip does -- whatever its exit code, and whether
      or not a read of its output raises. */
  lemma PipFailureNotSurfaced(wheel: Artifact, download: Result<seq<DownloadEvent>, DownloadError>,
                              run: PipRun, other: PipRun)
    ensures AttemptWheel(wheel, download, other).upgraded
         == AttemptWheel(wheel, download, run).upgraded
  {
  }

  /** Fetch `wheel` from the network and install it with pip. */
  function AttemptWith(wheel: Artifact, download: string -> Result<seq<DownloadEvent>, DownloadError>,
                       pip: string -> PipRun): (r: WheelAttempt)
    ensures r.wheel == wheel && r.path == FetchWheel(download(wheel.url))
    ensures r.upgraded <==> r.path.Some? && r.path.value != ""
    ensures r.upgraded ==> r.logs == InstallLogs(StreamedLines(pip(r.path.value).stdout))
    ensures !r.upgraded ==> r.logs == []
  {
    var path := FetchWheel(download(wheel.url));
    AttemptWheel(wheel, download(wheel.url), pip(if path.Some? then path.value else ""))
  }

  /** `upgrade`: every wheel of the chosen release is fetched and installed
      in list order; `download` and `pip` stand for the network and the pip
      subprocess. */
  function UpgradeAttempts(info: PkgInfo, installed: Option<Version>,
                           download: string -> Result<seq<DownloadEvent>, DownloadError>,
                           pip: string -> PipRun): (r: Result<seq<WheelAttempt>, UpgradeError>)
    ensures r.Failure? <==> WheelsToFetch(info, installed).Failure?
    ensures r.Success? ==> |r.value| == |WheelsToFetch(info, installed).value|
    ensures r.Success? ==> forall k :: 0 <= k < |r.value| ==>
              r.value[k].wheel == WheelsToFetch(info, installed).value[k]
    ensures r.Success? ==> forall k :: 0 <= k < |r.value| ==>
              r.value[k] == AttemptWith(WheelsToFetch(info, installed).value[k], download, pip)
    ensures r.Failure? ==> r.error == WheelsToFetch(info, installed).error
  {
    match WheelsToFetch(info, installed)
    case Failure(e) => Failure(e)
    case Success(wheels) =>
      var attempts := seq(|wheels|, k requires 0 <= k < |wheels| => AttemptWith(wheels[k], download, pip));
      assert forall k :: 0 <= k < |attempts| ==> attempts[k].wheel == wheels[k];
      Success(attempts)
  }
}

=== FILE: versions.dfy ===
/** Release versions as the installer sees them through distutils'
    `StrictVersion`: a triple of naturals ordered lexicographically, parsed
    from `major.minor[.patch]` and printed back without a zero patch. */
module Versions {
  import opened Wrappers
  import opened Text

  datatype Version = Version(major: nat, minor: nat, patch: nat)

  /** Strict ordering of versions (`StrictVersion.__lt__`). */
  predicate Less(a: Version, b: Version) {
    || a.major < b.major
    || (a.major == b.major && a.minor < b.minor)
    || (a.major == b.major && a.minor == b.minor && a.patch < b.patch)
  }

  /** `Less` is a strict total order, so "strictly greater" is well defined. */
  lemma LessIsStrictTotalOrder(a: Version, b: Version, c: Version)
    ensures !Less(a, a)
    ensures Less(a, b) && Less(b, c) ==> Less(a, c)
    ensures a == b || Less(a, b) || Less(b, a)
  {
  }

  /** The text `StrictVersion("...")` accepts: two or three dot-separated
      numerals. */
  predicate WellFormed(parts: seq<string>) {
    && (|parts| == 2 || |parts| == 3)
    && forall i :: 0 <= i < |parts| ==> IsNumeral(parts[i])
  }

  /** `parseVersion` (installer.py): `StrictVersion(version)` with every
      failure turned into `None`. An empty string is never parsed, so the
      resulting object has no `version` attribute and the lookup of it
      fails, which also yields `None`. */
  function ParseVersion(s: string): (r: Option<Version>)
    ensures r.Some? ==> s != "" && WellFormed(Split(s, '.'))
    ensures r.None? ==> s == "" || !WellFormed(Split(s, '.'))
  {
    if s == "" then None
    else
      var parts := Split(s, '.');
      if WellFormed(parts) then
        Some(Version(ParseNat(parts[0]), ParseNat(parts[1]),
                     if |parts| == 3 then ParseNat(parts[2]) else 0))
      else None
  }

  /** The dot-separated fields `str(StrictVersion)` prints: the patch is
      omitted when it is zero. */
  function VersionFields(v: Version): seq<string> {
    if v.patch == 0 then [NatToString(v.major), NatToString(v.minor)]
    else [NatToString(v.major), NatToString(v.minor), NatToString(v.patch)]
  }

  /** Each printed field is a numeral without leading zeros and without a
      dot; there are two fields when the patch is zero, three otherwise. */
  lemma VersionFieldsCanonical(v: Version)
    ensures |VersionFields(v)| == if v.patch == 0 then 2 else 3
    ensures forall i :: 0 <= i < |VersionFields(v)| ==>
              && IsNumeral(VersionFields(v)[i]) && '.' !in VersionFields(v)[i]
              && (VersionFields(v)[i][0] == '0' ==> VersionFields(v)[i] == "0")
  {
    var parts := VersionFields(v);
    forall i | 0 <= i < |parts|
      ensures '.' !in parts[i]
    {
      assert forall j :: 0 <= j < |parts[i]| ==> parts[i][j] != '.';
    }
  }

  /** `str(StrictVersion)`, used as the key into the `releases` mapping. */
  function VersionString(v: Version): (s: string)
    ensures s != ""
    ensures forall i :: 0 <= i < |s| ==> IsDigit(s[i]) || s[i] == '.'
  {
    var parts := VersionFields(v);
    VersionFieldsCanonical(v);
    JoinChars(parts);
    Join(parts, '.')
  }

  /** The form `str(StrictVersion)` prints: `major.minor`, followed by
      `.patch` only when the patch is not zero, each field written in
      decimal without leading zeros. */
  lemma VersionStringForm(v: Version)
    ensures |Split(VersionString(v), '.')| == if v.patch == 0 then 2 else 3
    ensures forall f :: f in Split(VersionString(v), '.') ==> |f| > 0 && (f[0] == '0' ==> f == "0")
  {
    VersionFieldsCanonical(v);
    SplitJoin(VersionFields(v), '.');
  }

  /** Joining numerals with dots yields only digits and dots. */
  lemma {:induction false} JoinChars(parts: seq<string>)
    requires |parts| >= 1
    requires forall i :: 0 <= i < |parts| ==> IsNumeral(parts[i])
    ensures Join(parts, '.') != ""
    ensures forall i :: 0 <= i < |Join(parts, '.')| ==>
              IsDigit(Join(parts, '.')[i]) || Join(parts, '.')[i] == '.'
    decreases |parts|
  {
    if |parts| > 1 {
      JoinChars(parts[1..]);
      var s := Join(parts, '.');
      assert s == parts[0] + ['.'] + Join(parts[1..], '.');
      forall i | 0 <= i < |s|
        ensures IsDigit(s[i]) || s[i] == '.'
      {
        if i < |parts[0]| {
          assert s[i] == parts[0][i];
        } else if i > |parts[0]| {
          assert s[i] == Join(parts[1..], '.')[i - |parts[0]| - 1];
        }
      }
    }
  }

  /** Printing a version and parsing it again gives the same version: the
      release key built from a parsed version is itself parseable. */
  lemma ParseVersionString(v: Version)
    ensures ParseVersion(VersionString(v)) == Some(v)
  {
    var parts := VersionFields(v);
    VersionFieldsCanonical(v);
    assert WellFormed(parts);
    ParseVersionOf(parts);
    ParseNatToString(v.major);
    ParseNatToString(v.minor);
    ParseNatToString(v.patch);
  }

  /** The value of a parsed version: each field is the decimal value of its
      numeral, leading zeros included (`"01.2"` is 1.2), and a missing
      patch is 0. */
  lemma ParseVersionOf(parts: seq<string>)
    requires WellFormed(parts)
    ensures ParseVersion(Join(parts, '.'))
         == Some(Version(ParseNat(parts[0]), ParseNat(parts[1]), if |parts| == 3 then ParseNat(parts[2]) else 0))
  {
    forall i | 0 <= i < |parts|
      ensures '.' !in parts[i]
    {
      assert forall j :: 0 <= j < |parts[i]| ==> parts[i][j] != '.';
    }
    SplitJoin(parts, '.');
    assert Join(parts, '.') != "" by {
      assert |Join(parts, '.')| >= |parts[0]| > 0;
    }
  }

  /** `major.minor` and `major.minor.patch` written with numerals. */
  lemma ParseVersionFields(a: string, b: string, c: string)
    requires IsNumeral(a) && IsNumeral(b) && IsNumeral(c)
    ensures ParseVersion(a + "." + b) == Some(Version(ParseNat(a), ParseNat(b), 0))
    ensures ParseVersion(a + "." + b + "." + c) == Some(Version(ParseNat(a), ParseNat(b), ParseNat(c)))
  {
    JoinTwo(a, b);
    ParseVersionOf([a, b]);
    JoinThree(a, b, c);
    ParseVersionOf([a, b, c]);
  }

  lemma JoinTwo(a: string, b: string)
    ensures Join([a, b], '.') == a + "." + b
  {
    assert [a, b][1..] == [b];
  }

  lemma JoinThree(a: string, b: string, c: string)
    ensures Join([a, b, c], '.') == a + "." + b + "." + c
  {
    assert [a, b, c][1..] == [b, c];
    JoinTwo(b, c);
  }

  /** Three decimal fields, as `pip show` prints them, parse to their
      values, an explicit zero patch included. */
  lemma ParseVersionTriple(a: nat, b: nat, c: nat)
    ensures ParseVersion(NatToString(a) + "." + NatToString(b) + "." + NatToString(c)) == Some(Version(a, b, c))
  {
    ParseNatToString(a);
    ParseNatToString(b);
    ParseNatToString(c);
    ParseVersionFields(NatToString(a), NatToString(b), NatToString(c));
  }

  /** Two distinct versions never print the same: the key identifies the
      release. */
  lemma VersionStringInjective(v: Version, w: Version)
    requires VersionString(v) == VersionString(w)
    ensures v == w
  {
    ParseVersionString(v);
    ParseVersionString(w);
  }

  /** The `needUpgrade` expression of `upgrade` (installer.py): a missing
      installed version always asks for an upgrade; otherwise an upgrade is
      needed exactly when a latest version is known and is strictly
      greater. */
  function NeedUpgrade(installed: Option<Version>, latest: Option<Version>): (r: bool)
    ensures installed.None? ==> r
    ensures installed.Some? ==> (r <==> latest.Some? && Less(installed.value, latest.value))
  {
    installed.None? || (latest.Some? && installed.Some? && Less(installed.value, latest.value))
  }

  /** Once the latest version is the installed one no further upgrade is
      asked for, and upgrades never go both ways between two versions. */
  lemma NeedUpgradeSettles(a: Version, b: Version)
    ensures !NeedUpgrade(Some(a), Some(a))
    ensures !(NeedUpgrade(Some(a), Some(b)) && NeedUpgrade(Some(b), Some(a)))
    ensures a != b ==> NeedUpgrade(Some(a), Some(b)) || NeedUpgrade(Some(b), Some(a))
  {
  }
}

=== FILE: wrappers.dfy ===
/** Failure-carrying values used across the model: `Option` for Python's
    `None`-or-value returns and `Result` for a raised exception. */
module Wrappers {

  datatype Option<+T> = None | Some(value: T)

  datatype Result<+R, +E> = Success(value: R) | Failure(error: E)
}
